=== FILE: README.md ===
# Campus map and content loader of the ROAR website, in Dafny

This project models the three pieces of real logic in the ROAR campus
activism website, a React site that is otherwise fetch-and-render:

- **The campus map component** (`src/components/map/CampusMap.jsx`). It
  derives the visible locations from the loaded list, the selected category
  keys and the search term, in two stages joined by AND. The category stage
  runs only for a non-empty selection without the sentinel `all`. The search
  stage runs only for a non-empty term and does a case-insensitive substring
  match over name, description, history and current use. The module also
  models the choice of marker icon (`createCustomIcon`) and the optional
  popup sections with the organizing indicator.
- **The campus map page** (`src/pages/CampusMap.jsx`). Its category toggle
  is a state machine over a list of keys. That list is never empty, and `all`
  never appears next to a concrete key. The page state around it holds the
  search term, the selected location for the detail panel and the legend
  flag.
- **The content loader helpers** (`src/utils/contentLoader.js`):
  - the frontmatter parser. Its regular expression is modelled with the
    engine's backtracking order. Value coercion runs in the source's order:
    quotes, then lists, then booleans.
  - guide search, the guide category filter, and the duplicate-free list of
    guide categories.
  - the slug of a content path.

Modules:

- `Wrappers` is `Option`.
- `Sequences` holds subsequence and duplicate facts.
- `Text` models the JavaScript string primitives the source uses.
- `LocationFilter`, `MapPage`, `Frontmatter` and `Guides` model the three
  source files.

Every filter is stated three ways:
- as an order-preserving subsequence of its input;
- by membership;
- by exact multiplicities, each element kept with all its copies or dropped.

Together these pin the result down completely. This covers the location
and guide filters, `Without`, `RemoveAll` (the quote stripping of list
items) and `Truthies` (`filter(Boolean)` on the guides' category fields). The two-stage map filter is
also proved equal to a one-pass reference filter on the conjunction of both
stages (`VisibleIsConjunction`).

Two behaviours of the code are easy to misread:

- An empty `selectedCategories` array imposes no category restriction
  (CampusMap.jsx:77): an empty selection shows every location
  (`LocationFilter.EmptySelectionShowsAll`).
- A whitespace-only search term on the map is not skipped. It is matched
  literally, because the code tests `if (searchTerm)` and never trims
  (`LocationFilter.ExampleBlankSearch`). Only `searchGuides` trims before its
  emptiness test.

## Model

| member | source | states |
|---|---|---|
| `LocationFilter.FilterByCategory` | src/components/map/CampusMap.jsx:77-81 | The category stage keeps exactly the locations whose category is in the selection, in input order, with all their copies. |
| `LocationFilter.FilterBySearch` | src/components/map/CampusMap.jsx:84-91 | The search stage keeps exactly the locations where the lower-cased term occurs in the lower-cased name or description, or in the history or current use when present. Order and copies are kept. |
| `LocationFilter.VisibleLocations` | src/components/map/CampusMap.jsx:70-95 | The visible list is an order-preserving subsequence of all locations. A location is in it iff it passes both stages. An empty list gives an empty result. With no category restriction and an empty term the result is the whole list unchanged. |
| `LocationFilter.VisibleIsConjunction` | src/components/map/CampusMap.jsx:76-94 | The two stages in sequence equal a single pass that keeps the locations passing category AND search. |
| `LocationFilter.SelectionNarrows` | src/components/map/CampusMap.jsx:77-81 | Whatever a category selection shows also appears, in the same order, under the unrestricted selection. |
| `LocationFilter.SearchIgnoresCase` | src/components/map/CampusMap.jsx:85-91 | Two search terms with the same lower-cased form give the same visible list. |
| `LocationFilter.SearchLowerCased` | src/components/map/CampusMap.jsx:85 | Searching with a term or its lower-cased form gives the same result. |
| `LocationFilter.EmptySelectionShowsAll` | src/components/map/CampusMap.jsx:77 | An empty selection behaves exactly like `['all']`. |
| `LocationFilter.ExampleCategories` | src/components/map/CampusMap.jsx:74-81 | Two-location example: `['all']` shows both in order, and `['park']` shows only the park. |
| `LocationFilter.ExampleSearch` | src/components/map/CampusMap.jsx:84-91 | Same example: the term "book" shows only the library, through its description. |
| `LocationFilter.ExampleBlankSearch` | src/components/map/CampusMap.jsx:84-85 | Same example: a one-space term is matched literally and shows only the location whose name has a space. |
| `LocationFilter.CreateCustomIcon` | src/components/map/CampusMap.jsx:16-30 | The default icon is returned iff the category is absent from the table. Otherwise the icon is a 30x30 `custom-marker` with that category's colour and glyph. It is anchored at bottom centre, with the popup opening above it. |
| `LocationFilter.ExampleMissingCategory` | src/components/map/CampusMap.jsx:16-18 | A location whose category is missing gets the default marker and an empty badge. |
| `LocationFilter.BadgeOf` | src/components/map/CampusMap.jsx:145-151 | The badge's colour, glyph and name are all present or all absent. They are present iff the marker is the custom icon, and then the badge shows the marker's colour and glyph. |
| `LocationFilter.BuildPopup` | src/components/map/CampusMap.jsx:141-190 | The popup carries the name and description. The badge is present iff the category is in the table, and for a missing category every part of the badge is absent. A section of each kind (history, current use, tips, permits) appears iff that field is truthy, shows that field's text, and sections follow that fixed order. The indicator is "good for organizing" iff `organizeHere`, so exactly one of the two is shown. |
| `LocationFilter.SectionsShowTruthyFields` | src/components/map/CampusMap.jsx:156-182 | A kind is shown iff it is listed and its field is present and non-empty. |
| `LocationFilter.SectionsShowTheirField` | src/components/map/CampusMap.jsx:156-182 | Every shown section displays the text of its own field. |
| `LocationFilter.SectionsKeepOrder` | src/components/map/CampusMap.jsx:156-182 | For kinds listed in popup order, the sections keep that order. |
| `MapPage.Without` | src/pages/CampusMap.jsx:31 | Removing a key keeps every other key with all its copies and in order, and leaves a list without that key unchanged. |
| `MapPage.Toggle` | src/pages/CampusMap.jsx:26-40 | Toggling `all` gives exactly `['all']`. For any other key `c`: `c` ends up selected iff it was not before; every other concrete key keeps its membership; a newly added `c` is appended exactly once to the previous keys without `all`; the other keys keep their order. The result is never empty and contains `all` iff it equals `['all']`. |
| `MapPage.ToggleKeepsNoDuplicates` | src/pages/CampusMap.jsx:31-36 | A duplicate-free selection stays duplicate-free. |
| `MapPage.ToggleTwiceRestores` | src/pages/CampusMap.jsx:31-36 | From a well-formed selection, toggling an unselected concrete key twice restores the selection exactly. |
| `MapPage.ToggleTwiceSameKeys` | src/pages/CampusMap.jsx:31-36 | Toggling a selected concrete key twice restores the same keys, with that key moved to the end. |
| `MapPage.Step` | src/pages/CampusMap.jsx:18-44 | Loading the category table stores it. Selecting a location stores it, and closing the panel clears it. The legend flag flips only on its own event. No other event touches the category selection or the search term. |
| `MapPage.Run` | src/pages/CampusMap.jsx:18-44 | Over any sequence of events, the selection changes only through toggles, the search term only through search edits, and the category table only through loading. |
| `MapPage.RunKeepsInvariant` | src/pages/CampusMap.jsx:26-40 | Every sequence of events preserves a non-empty, duplicate-free selection in which `all` stands alone. |
| `MapPage.ReachableInvariant` | src/pages/CampusMap.jsx:7-10 | Every state reachable from the first render satisfies that invariant. |
| `MapPage.InitialShowsEverything` | src/pages/CampusMap.jsx:7-10 | The first render has no selected location, shows the legend, and passes every location to the map. |
| `MapPage.ShowAllExclusive` | src/pages/CampusMap.jsx:68-79 | In a well-formed state the "Show All" button is active exactly when no concrete key is selected. |
| `MapPage.DetailPanel` | src/pages/CampusMap.jsx:129-198 | The detail panel exists iff a location is selected. It shows that location's name and the same truthy-field sections as the popup. |
| `MapPage.PageVisible` | src/pages/CampusMap.jsx:122-126 | With `all` selected and an empty term the page's map shows every location. When `all` is not selected, every shown location has a selected category. |
| `Text.Lower` | src/components/map/CampusMap.jsx:85-90 | Lower-casing keeps the length, leaves no upper-case ASCII letter, and changes no character that is not one. |
| `Text.Contains` | src/components/map/CampusMap.jsx:87-90 | The empty pattern occurs in every string, a string contains itself, and no pattern longer than the string occurs in it. |
| `Text.LowerIdempotent` | src/components/map/CampusMap.jsx:85 | Lower-casing twice equals lower-casing once. |
| `Text.Trim` | src/utils/contentLoader.js:29-30 | The trimmed string has no space at either end. It is the part of the input between a leading and a trailing run of spaces. It is empty iff the input is all spaces, and an already trimmed string is unchanged. |
| `Text.IndexOf` | src/utils/contentLoader.js:27 | The result is -1 iff the pattern does not occur. Otherwise it is the leftmost occurrence. |
| `Text.RemoveFirst` | src/utils/contentLoader.js:72 | Only the leftmost occurrence of the pattern is removed. A string without the pattern is unchanged. |
| `Text.RemoveAll` | src/utils/contentLoader.js:40 | No removed character remains, every other character is kept in order with all its copies, and a string with none of them is unchanged. |
| `Text.Split` | src/utils/contentLoader.js:26 | There is one more piece than separators, and no piece contains the separator. |
| `Text.JoinSplit` | src/utils/contentLoader.js:26 | Joining the pieces of a split gives the original text back. |
| `Text.SplitJoin` | src/utils/contentLoader.js:40 | Splitting a join of separator-free pieces gives the pieces back. |
| `Frontmatter.MatchFrontmatter` | src/utils/contentLoader.js:14-15 | No match is reported iff the pattern has no match. A reported match is one, and it is the one the backtracking order reaches first: longest first `\s*`, shortest group 1, longest second `\s*`. |
| `Frontmatter.TryOpen` | src/utils/contentLoader.js:14 | Backtracking over the first `\s*` finds the preferred match among the shorter openings, or reports that none has a match. |
| `Frontmatter.CloseAt` | src/utils/contentLoader.js:14 | At a given position, the closing `\n---\s*\n` is found iff one exists there, and its `\s*` is the longest that ends in a newline. |
| `Frontmatter.FirstClose` | src/utils/contentLoader.js:14 | The lazy group 1 ends at the first closing `\n---` line from the given position, and the greedy second `\s*` is the longest that ends in a newline. |
| `Frontmatter.ParseFrontmatter` | src/utils/contentLoader.js:13-52 | Without a match the result is empty data with the whole input as content. With a match, the result is read off the first match in the engine's backtracking order: the data comes from the lines of group 1 and the content is group 2. The content is always a suffix of the input. |
| `Frontmatter.MatchIsFirst` | src/utils/contentLoader.js:14-15 | Whenever some match is preferred to every other, the matcher reports exactly that match. |
| `Frontmatter.FrontmatterRoundTrip` | src/utils/contentLoader.js:14-22 | A document written as `---`, a block, `---` and a body parses back into the block's lines and exactly that body. The block must start with a non-space and contain no newline followed by `---`, and the body must not start with a space. |
| `Frontmatter.ParseLine` | src/utils/contentLoader.js:26-30 | A line yields an entry iff it contains a colon. The key is trimmed and colon-free. |
| `Frontmatter.SplitAtFirstColon` | src/utils/contentLoader.js:27-30 | A line is split at its first colon. The value keeps any later colons, and key and value are trimmed. |
| `Frontmatter.AssembleKeys` | src/utils/contentLoader.js:26-49 | Folding line entries into the data object: a key is present iff some entry defines it. |
| `Frontmatter.LastEntryWins` | src/utils/contentLoader.js:47 | In the fold, a key's value is the one from the last entry that defines it. |
| `Frontmatter.ParseLines` | src/utils/contentLoader.js:26-49 | The keys of the data are exactly the keys defined by some line. |
| `Frontmatter.LastLineWins` | src/utils/contentLoader.js:47 | A key's value comes from the last line that defines it. |
| `Frontmatter.CoerceUnquoted` | src/utils/contentLoader.js:38-45 | A bracketed value becomes a list of one more item than it has commas, no item holds a quote character, and each item is obtained from its comma-separated piece by deleting characters. Exactly `true`/`false` become booleans. Anything else stays the same string. |
| `Frontmatter.Coerce` | src/utils/contentLoader.js:33-45 | A value becomes `true` iff it is `true`, `"true"` or `'true'`, and likewise for `false`. A string result is the value itself or the inside of its quotes. An unquoted value is coerced as written. |
| `Frontmatter.StripQuotesTo` | src/utils/contentLoader.js:33-36 | The raw values that unquote to a word not starting with a quote are the word itself and the word in double or single quotes. |
| `Frontmatter.QuotingIsTransparent` | src/utils/contentLoader.js:33-45 | One pair of surrounding quotes is stripped before list and boolean coercion, so a quoted `"true"` is a boolean. |
| `Frontmatter.ListItems` | src/utils/contentLoader.js:40 | There is one more item than commas inside the brackets. No item holds a quote or a comma, and each item is obtained from its comma-separated piece by deleting characters. |
| `Frontmatter.ListRoundTrip` | src/utils/contentLoader.js:39-41 | A bracketed, comma-joined list of comma-free pieces coerces to the list of those pieces, each trimmed and then stripped of every quote character. |
| `Frontmatter.CleanListRoundTrip` | src/utils/contentLoader.js:39-41 | A bracketed, comma-joined list of trimmed, quote-free, comma-free items coerces to exactly those items. |
| `Guides.FilterMatching` | src/utils/contentLoader.js:129-138 | Keeps exactly the guides whose title, raw content, some tag or category contains the lower-cased term, ignoring case. Order and copies are kept. |
| `Guides.SearchGuides` | src/utils/contentLoader.js:124-139 | A blank or whitespace-only query returns the input unchanged. Any other query keeps exactly the matching guides in order, matching against the lower-cased but untrimmed query. |
| `Guides.SearchGuidesIgnoresCase` | src/utils/contentLoader.js:125-127 | Queries with the same lower-cased form find the same guides. |
| `Guides.FilterCategory` | src/utils/contentLoader.js:149 | Keeps exactly the guides whose category equals the argument, in order. |
| `Guides.FilterGuidesByCategory` | src/utils/contentLoader.js:147-150 | A missing, empty or `all` category returns the input unchanged. Any other category keeps exactly the guides of that category, in order. |
| `Guides.Truthies` | src/utils/contentLoader.js:158 | `filter(Boolean)` keeps exactly the present, non-empty category fields, in order. |
| `Guides.TruthiesCount` | src/utils/contentLoader.js:158 | `filter(Boolean)` keeps every non-empty category with all its copies. |
| `Guides.TruthiesFirstIndex` | src/utils/contentLoader.js:158 | Two categories first appear in the filtered list in the same order as their first appearance among the guides' category fields. |
| `Guides.TruthyCategories` | src/utils/contentLoader.js:158 | The listed categories are exactly the present, non-empty guide categories, in guide order and with all their copies. |
| `Guides.Dedup` | src/utils/contentLoader.js:159 | The result has no duplicates and the same members as the input, ordered by first occurrence. |
| `Guides.GuideCategories` | src/utils/contentLoader.js:157-160 | Every truthy guide category appears once and nothing else appears. Two categories are ordered as the first guides carrying them are. |
| `Guides.LastSegment` | src/utils/contentLoader.js:72 | The segment has no `/`. It is a suffix of the path, preceded by `/` unless it is the whole path. |
| `Guides.Slug` | src/utils/contentLoader.js:72 | A slug never contains `/`. |
| `Guides.SlugOfContentPath` | src/utils/contentLoader.js:72 | For `dir/name.md`, where `name` has no `/` and no `.md`, the slug is `name`. |

## Left out

- Fetching is not modelled, and neither are async loading or the loading and error branches of the components. These are network I/O and React effect scheduling: CampusMap.jsx:52-68 and 97-103, pages/CampusMap.jsx:13-24, and contentLoader.js:59-94 and 166-178. The page's category table arrives through a `CategoriesLoaded` event instead.
- Leaflet is not modelled: `MapContainer`, `TileLayer`, `MapUpdater`'s `setView`, the campus bounds, the zoom limits and the default-icon URL patch. This is a foreign library over floating-point coordinates, which the model carries as opaque `real`s.
- The HTML of the marker icon and the popup headings are not modelled; the model records the colour, the glyph and the section kinds instead. This is presentation text.
- `marked` markdown conversion and the featured/date sort of `loadGuides` are not modelled. The first is an external library; the second depends on JavaScript `Date` parsing.
- Text.Lower: only ASCII letters are lower-cased. The full Unicode case mapping of `toLowerCase` is a large table outside the point of the model.
- Strings are sequences of Unicode scalar values, not UTF-16 code units. The two differ only for characters outside the Basic Multilingual Plane.
- Category-table keys and frontmatter keys that name `Object.prototype` members (`constructor`, `__proto__`) are not modelled. They behave specially on plain JavaScript objects.
- Frontmatter values of the wrong type on a guide are not modelled. A non-string title or non-list tags would raise a `TypeError` in `searchGuides`, while the model types these fields.
- The guides page (`OrganizingGuides.jsx`) is not modelled. Its filter-then-search pipeline is the composition of `FilterGuidesByCategory` and `SearchGuides`. The other pages, routing and build configuration only render.

=== FILE: frontmatter.dfy ===
/** The frontmatter parser of the content loader: a leading block of
    `key: value` lines between `---` delimiters, with quote stripping, list
    and boolean coercion. */
module Frontmatter {
  import opened Wrappers
  import opened Sequences
  import opened Text

  /** A frontmatter value after coercion. */
  datatype Value = Str(s: string) | List(items: seq<string>) | Bool(b: bool)

  /** A parsed markdown document: the frontmatter fields and the body. */
  datatype Document = Document(data: map<string, Value>, content: string)

  // ---------------------------------------------------------------------------
  // The regular expression  ^---\s*\n([\s\S]*?)\n---\s*\n([\s\S]*)$
  //
  // A match is fixed by three lengths: `a`, the spaces taken by the first
  // `\s*`; `e`, the position of the `\n---` that ends group 1; `b`, the
  // spaces taken by the second `\s*`. Group 1 is `s[4 + a..e]` and group 2,
  // which runs to the end, is `s[e + 5 + b..]`.

  /** `---`, then `a` spaces, then a newline at the start of `s`. */
  predicate Opens(s: string, a: int)
  {
    |s| >= 3 && s[..3] == "---" && 0 <= a && 3 + a < |s| && Spaces(s, 3, 3 + a) && s[3 + a] == '\n'
  }

  /** `\n---` at `e`, then `b` spaces, then a newline. */
  predicate Closes(s: string, e: int, b: int)
  {
    0 <= e && 0 <= b && e + 4 + b < |s| && s[e..e + 4] == "\n---"
    && Spaces(s, e + 4, e + 4 + b) && s[e + 4 + b] == '\n'
  }

  /** The whole pattern matches `s` with the choices `a`, `e`, `b`. */
  predicate Matches(s: string, a: int, e: int, b: int)
  {
    Opens(s, a) && 4 + a <= e && Closes(s, e, b)
  }

  datatype Choice = Choice(a: nat, e: nat, b: nat)

  /** The backtracking engine reaches `c` no later than `(a, e, b)`: the
      greedy first `\s*` tries longer runs first, the lazy group 1 tries
      shorter texts first, and the greedy second `\s*` longer runs first. */
  predicate Prefers(c: Choice, a: int, e: int, b: int)
  {
    a < c.a || (a == c.a && (c.e < e || (c.e == e && b <= c.b)))
  }

  /** `(a, e, b)` is the match the backtracking engine reports. */
  ghost predicate FirstMatch(s: string, a: int, e: int, b: int)
  {
    Matches(s, a, e, b)
    && forall a', e', b' :: Matches(s, a', e', b') ==> Prefers(Choice(a, e, b), a', e', b')
  }

  /** Two choices each preferred to the other are the same choice. */
  lemma PrefersAntisymmetric(c: Choice, d: Choice)
    requires Prefers(c, d.a, d.e, d.b) && Prefers(d, c.a, c.e, c.b)
    ensures c == d
  {
  }

  /** The engine reports exactly the first match. */
  lemma MatchIsFirst(s: string, a: int, e: int, b: int)
    requires FirstMatch(s, a, e, b)
    ensures MatchFrontmatter(s) == Some(Choice(a, e, b))
  {
    var c := MatchFrontmatter(s).value;
    PrefersAntisymmetric(c, Choice(a, e, b));
  }

  /** The last newline among `s[p..p + n]`, as an offset from `p`. */
  function LastNewline(s: string, p: nat, n: nat): (r: Option<nat>)
    requires p + n <= |s|
    ensures r.Some? ==> r.value < n && s[p + r.value] == '\n'
    ensures r.Some? ==> forall k :: p + r.value < k < p + n ==> s[k] != '\n'
    ensures r.None? ==> forall k :: p <= k < p + n ==> s[k] != '\n'
    decreases n
  {
    if n == 0 then None
    else if s[p + n - 1] == '\n' then Some(n - 1)
    else LastNewline(s, p, n - 1)
  }

  /** The closing delimiter at `e`, with the greedy choice of `b`. */
  function CloseAt(s: string, e: nat): (r: Option<nat>)
    ensures r.Some? ==> Closes(s, e, r.value)
    ensures r.Some? ==> forall b :: r.value < b ==> !Closes(s, e, b)
    ensures r.None? ==> forall b :: !Closes(s, e, b)
  {
    if e + 4 <= |s| && s[e..e + 4] == "\n---" then
      var n := SpaceRun(s, e + 4);
      var r := LastNewline(s, e + 4, n);
      forall b | Closes(s, e, b)
        ensures b < n
      {
        SpaceRunBound(s, e + 4, b);
      }
      r
    else None
  }

  /** The first closing delimiter at or after `from`. */
  function FirstClose(s: string, from: nat): (r: Option<(nat, nat)>)
    ensures r.Some? ==> from <= r.value.0 && Closes(s, r.value.0, r.value.1)
    ensures r.Some? ==> forall b :: r.value.1 < b ==> !Closes(s, r.value.0, b)
    ensures r.Some? ==> forall e, b :: from <= e < r.value.0 ==> !Closes(s, e, b)
    ensures r.None? ==> forall e, b :: from <= e ==> !Closes(s, e, b)
    decreases |s| - from
  {
    if from >= |s| then None
    else
      match CloseAt(s, from)
      case Some(b) => Some((from, b))
      case None => FirstClose(s, from + 1)
  }

  /** Backtracking over the first `\s*`, from `k - 1` spaces down to none. */
  function TryOpen(s: string, k: nat): (r: Option<Choice>)
    requires |s| >= 3 && s[..3] == "---" && 3 + k <= |s| && Spaces(s, 3, 3 + k)
    ensures r.Some? ==> r.value.a < k && Matches(s, r.value.a, r.value.e, r.value.b)
    ensures r.Some? ==> forall a, e, b :: a < k && Matches(s, a, e, b) ==> Prefers(r.value, a, e, b)
    ensures r.None? ==> forall a, e, b :: a < k ==> !Matches(s, a, e, b)
    decreases k
  {
    if k == 0 then None
    else
      var a := k - 1;
      if s[3 + a] == '\n' then
        match FirstClose(s, 4 + a)
        case Some((e, b)) => Some(Choice(a, e, b))
        case None => TryOpen(s, a)
      else TryOpen(s, a)
  }

  /** The match the regular expression finds, if any: a match, and the one
      the backtracking order reaches first. */
  function MatchFrontmatter(s: string): (r: Option<Choice>)
    ensures r.None? <==> forall a, e, b :: !Matches(s, a, e, b)
    ensures r.Some? ==> Matches(s, r.value.a, r.value.e, r.value.b)
    ensures r.Some? ==> forall a, e, b :: Matches(s, a, e, b) ==> Prefers(r.value, a, e, b)
  {
    if |s| >= 3 && s[..3] == "---" then
      var n := SpaceRun(s, 3);
      forall a, e, b | Matches(s, a, e, b)
        ensures a < n
      {
        SpaceRunBound(s, 3, a);
      }
      TryOpen(s, n)
    else None
  }

  // ---------------------------------------------------------------------------
  // Value coercion

  const QuoteChars: set<char> := {'\'', '"'}

  /** `slice(1, -1)`: drops the first and the last character; a single
      character leaves nothing. */
  function Inner(v: string): string
  {
    if |v| >= 2 then v[1..|v| - 1] else ""
  }

  /** Starts and ends with the same kind of quote. */
  predicate Quoted(v: string)
  {
    |v| > 0 && ((v[0] == '"' && v[|v| - 1] == '"') || (v[0] == '\'' && v[|v| - 1] == '\''))
  }

  /** Starts with `[` and ends with `]`. */
  predicate Bracketed(v: string)
  {
    |v| > 0 && v[0] == '[' && v[|v| - 1] == ']'
  }

  /** Step one: one pair of surrounding quotes is removed. */
  function StripQuotes(v: string): string
  {
    if Quoted(v) then Inner(v) else v
  }

  /** The raw values that unquote to a word not starting with a quote: the
      word itself, or the word in double or single quotes. */
  lemma StripQuotesTo(v: string, w: string)
    requires |w| > 0 && w[0] !in QuoteChars
    ensures StripQuotes(v) == w <==> v in {w, "\"" + w + "\"", "'" + w + "'"}
  {
    if StripQuotes(v) == w && Quoted(v) {
      assert v == [v[0]] + w + [v[|v| - 1]];
    }
    if v == "\"" + w + "\"" || v == "'" + w + "'" {
      assert Quoted(v) && Inner(v) == w;
    }
  }

  /** The items of a bracketed list: split on commas, each trimmed and
      cleared of every quote character. */
  function ListItems(v: string): (items: seq<string>)
    ensures |items| == Count(Inner(v), ',') + 1
    ensures forall i, k :: 0 <= i < |items| && 0 <= k < |items[i]| ==> items[i][k] !in QuoteChars && items[i][k] != ','
    ensures forall i :: 0 <= i < |items| ==> IsSubsequence(items[i], Split(Inner(v), ',')[i])
  {
    var parts := Split(Inner(v), ',');
    var items := seq(|parts|, i requires 0 <= i < |parts| => RemoveAll(Trim(parts[i]), QuoteChars));
    forall i | 0 <= i < |parts|
      ensures ',' !in items[i] && IsSubsequence(items[i], parts[i])
    {
      TrimKeepsAbsence(parts[i], ',');
      TrimIsSubsequence(parts[i]);
      SubsequenceTransitive(items[i], Trim(parts[i]), parts[i]);
      SubsequenceMembers(items[i], Trim(parts[i]));
    }
    items
  }

  /** Steps two and three, applied to an already unquoted value. */
  function CoerceUnquoted(u: string): (r: Value)
    ensures r.List? <==> Bracketed(u)
    ensures r.Bool? <==> u == "true" || u == "false"
    ensures r.Bool? ==> (r.b <==> u == "true")
    ensures r.Str? ==> r.s == u
    ensures r.List? ==> |r.items| == Count(Inner(u), ',') + 1
    ensures r.List? ==> forall i, k :: 0 <= i < |r.items| && 0 <= k < |r.items[i]| ==> r.items[i][k] !in QuoteChars
    ensures r.List? ==> forall i :: 0 <= i < |r.items| ==> IsSubsequence(r.items[i], Split(Inner(u), ',')[i])
  {
    if Bracketed(u) then List(ListItems(u))
    else if u == "true" then Bool(true)
    else if u == "false" then Bool(false)
    else Str(u)
  }

  /** The coercion of a trimmed value, in the source's fixed order. */
  function Coerce(v: string): (r: Value)
    ensures r == Bool(true) <==> v in {"true", "\"true\"", "'true'"}
    ensures r == Bool(false) <==> v in {"false", "\"false\"", "'false'"}
    ensures r.Str? ==> r.s == v || (Quoted(v) && r.s == Inner(v))
    ensures !Quoted(v) ==> r == CoerceUnquoted(v)
  {
    StripQuotesTo(v, "true");
    assert "\"" + "true" + "\"" == "\"true\"" && "'" + "true" + "'" == "'true'";
    StripQuotesTo(v, "false");
    assert "\"" + "false" + "\"" == "\"false\"" && "'" + "false" + "'" == "'false'";
    CoerceUnquoted(StripQuotes(v))
  }

  /** Quotes do not protect a value from the later steps: a quoted `true`
      is a boolean and a quoted bracket list is a list. */
  lemma {:induction false} QuotingIsTransparent(x: string, q: char)
    requires q in QuoteChars
    ensures Coerce([q] + x + [q]) == CoerceUnquoted(x)
  {
    var v := [q] + x + [q];
    assert Quoted(v);
    assert Inner(v) == x;
  }

  /** A bracketed, comma-joined list of clean items coerces to those items. */
  lemma ListRoundTrip(items: seq<string>)
    requires |items| >= 1
    requires forall i :: 0 <= i < |items| ==> ',' !in items[i]
    ensures Coerce("[" + Join(items, ',') + "]")
              == List(seq(|items|, i requires 0 <= i < |items| => RemoveAll(Trim(items[i]), QuoteChars)))
  {
    var v := "[" + Join(items, ',') + "]";
    assert !Quoted(v) && Bracketed(v);
    assert Inner(v) == Join(items, ',');
    SplitJoin(items, ',');
  }

  /** A list of trimmed, quote-free, comma-free items reads back unchanged. */
  lemma CleanListRoundTrip(items: seq<string>)
    requires |items| >= 1
    requires forall i :: 0 <= i < |items| ==> ',' !in items[i] && IsTrimmed(items[i])
    requires forall i, k :: 0 <= i < |items| && 0 <= k < |items[i]| ==> items[i][k] !in QuoteChars
    ensures Coerce("[" + Join(items, ',') + "]") == List(items)
  {
    ListRoundTrip(items);
    var listed := seq(|items|, i requires 0 <= i < |items| => RemoveAll(Trim(items[i]), QuoteChars));
    forall i | 0 <= i < |items|
      ensures listed[i] == items[i]
    {
      assert Trim(items[i]) == items[i];
    }
    assert listed == items;
  }

  // ---------------------------------------------------------------------------
  // Lines

  /** One frontmatter line: split at the first colon, key and value trimmed;
      a line without a colon contributes nothing. */
  function ParseLine(line: string): (r: Option<(string, Value)>)
    ensures r.Some? <==> ':' in line
    ensures r.Some? ==> ':' !in r.value.0 && IsTrimmed(r.value.0)
  {
    var i := IndexOf(line, ":");
    ContainsChar(line, ':');
    if i < 0 then None
    else
      var key := line[..i];
      assert ':' !in key by {
        forall j | 0 <= j < |key|
          ensures key[j] != ':'
        {
          assert !IsAt(line, ":", j);
          assert line[j..j + 1] == [line[j]];
        }
      }
      TrimKeepsAbsence(key, ':');
      Some((Trim(key), Coerce(Trim(line[i + 1..]))))
  }

  /** Whatever follows the first colon is the value, colons included. */
  lemma SplitAtFirstColon(key: string, value: string)
    requires ':' !in key
    ensures ParseLine(key + ":" + value) == Some((Trim(key), Coerce(Trim(value))))
  {
    var line := key + ":" + value;
    assert IsAt(line, ":", |key|);
    forall j | 0 <= j < |key|
      ensures !IsAt(line, ":", j)
    {
      assert line[j] == key[j];
    }
    IndexOfFirst(line, ":", |key|);
    assert line[..|key|] == key && line[|key| + 1..] == value;
  }

  /** The key a line defines, if any. */
  function KeyOf(line: string): Option<string>
  {
    match ParseLine(line)
    case None => None
    case Some(kv) => Some(kv.0)
  }

  /** What each line contributes, in order. */
  type Entry = Option<(string, Value)>

  /** The entries folded into a map, a later entry overwriting an earlier
      one's key. */
  function Assemble(entries: seq<Entry>): map<string, Value>
    decreases |entries|
  {
    if |entries| == 0 then map[]
    else
      var data := Assemble(entries[..|entries| - 1]);
      match entries[|entries| - 1]
      case None => data
      case Some(kv) => data[kv.0 := kv.1]
  }

  /** Some entry defines key `k`. */
  predicate Defines(entries: seq<Entry>, k: string)
  {
    exists i :: 0 <= i < |entries| && entries[i].Some? && entries[i].value.0 == k
  }

  /** The keys of the fold are exactly the keys some entry defines. */
  lemma {:induction false} AssembleKeys(entries: seq<Entry>, k: string)
    ensures k in Assemble(entries) <==> Defines(entries, k)
    decreases |entries|
  {
    if |entries| > 0 {
      var n := |entries| - 1;
      var init := entries[..n];
      AssembleKeys(init, k);
      if Defines(init, k) {
        var i :| 0 <= i < |init| && init[i].Some? && init[i].value.0 == k;
        assert entries[i] == init[i];
      }
      if Defines(entries, k) && !(entries[n].Some? && entries[n].value.0 == k) {
        var i :| 0 <= i < |entries| && entries[i].Some? && entries[i].value.0 == k;
        assert init[i] == entries[i];
      }
    }
  }

  /** A key's value comes from the last entry defining it. */
  lemma {:induction false} LastEntryWins(entries: seq<Entry>, i: nat)
    requires i < |entries| && entries[i].Some?
    requires forall j :: i < j < |entries| && entries[j].Some? ==> entries[j].value.0 != entries[i].value.0
    ensures entries[i].value.0 in Assemble(entries)
    ensures Assemble(entries)[entries[i].value.0] == entries[i].value.1
    decreases |entries|
  {
    var init := entries[..|entries| - 1];
    if i < |entries| - 1 {
      assert forall j :: 0 <= j < |init| ==> init[j] == entries[j];
      LastEntryWins(init, i);
    }
  }

  /** The entries of a block of lines. */
  function Entries(lines: seq<string>): (es: seq<Entry>)
    ensures |es| == |lines|
    ensures forall i :: 0 <= i < |lines| ==> es[i] == ParseLine(lines[i])
  {
    seq(|lines|, i requires 0 <= i < |lines| => ParseLine(lines[i]))
  }

  /** All lines in order, a later line overwriting an earlier one's key; the
      keys of the data are exactly the keys some line defines. */
  function ParseLines(lines: seq<string>): (data: map<string, Value>)
    ensures forall k :: k in data <==> exists i :: 0 <= i < |lines| && KeyOf(lines[i]) == Some(k)
  {
    var es := Entries(lines);
    forall k
      ensures k in Assemble(es) <==> exists i :: 0 <= i < |lines| && KeyOf(lines[i]) == Some(k)
    {
      AssembleKeys(es, k);
      if Defines(es, k) {
        var i :| 0 <= i < |es| && es[i].Some? && es[i].value.0 == k;
        assert KeyOf(lines[i]) == Some(k);
      }
      if exists i :: 0 <= i < |lines| && KeyOf(lines[i]) == Some(k) {
        var i :| 0 <= i < |lines| && KeyOf(lines[i]) == Some(k);
        assert es[i].Some? && es[i].value.0 == k;
      }
    }
    Assemble(es)
  }

  /** The value of a key is the one on the last line defining it. */
  lemma LastLineWins(lines: seq<string>, i: nat)
    requires i < |lines| && ParseLine(lines[i]).Some?
    requires forall j :: i < j < |lines| ==> KeyOf(lines[j]) != KeyOf(lines[i])
    ensures ParseLine(lines[i]).value.0 in ParseLines(lines)
    ensures ParseLines(lines)[ParseLine(lines[i]).value.0] == ParseLine(lines[i]).value.1
  {
    var es := Entries(lines);
    forall j | i < j < |es| && es[j].Some?
      ensures es[j].value.0 != es[i].value.0
    {
      assert KeyOf(lines[j]) != KeyOf(lines[i]);
    }
    LastEntryWins(es, i);
  }

  // ---------------------------------------------------------------------------
  // The parser

  /** `parseFrontmatter`: without a match, no data and the whole text as
      the body; with one, the lines of group 1 and group 2 as the body. */
  function ParseFrontmatter(text: string): (doc: Document)
    ensures (forall a, e, b :: !Matches(text, a, e, b)) ==> doc == Document(map[], text)
    ensures |doc.content| <= |text| && doc.content == text[|text| - |doc.content|..]
    ensures doc.content == text ==> doc.data == map[]
    ensures forall a, e, b :: FirstMatch(text, a, e, b) ==> doc == FromMatch(text, a, e, b)
  {
    forall a, e, b | FirstMatch(text, a, e, b)
      ensures MatchFrontmatter(text) == Some(Choice(a, e, b))
    {
      MatchIsFirst(text, a, e, b);
    }
    match MatchFrontmatter(text)
    case None => Document(map[], text)
    case Some(c) => FromMatch(text, c.a, c.e, c.b)
  }

  /** The document read off a match: group 1 split into lines, group 2 as
      the body. */
  function FromMatch(text: string, a: int, e: int, b: int): Document
    requires Matches(text, a, e, b)
  {
    Document(ParseLines(Split(text[4 + a..e], '\n')), text[e + 5 + b..])
  }

  /** The text of a document with frontmatter block `front` and body `body`. */
  function Render(front: string, body: string): string
  {
    "---\n" + front + "\n---\n" + body
  }

  /** Conditions under which rendering is read back unchanged: the block
      starts with a non-space, no newline in it is followed by `---`, and the body
      does not start with a space. */
  predicate Plain(front: string, body: string)
  {
    && |front| > 0 && !IsSpace(front[0])
    && !Contains(front, "\n---")
    && (|body| == 0 || !IsSpace(body[0]))
  }

  lemma RenderLayout(front: string, body: string)
    ensures var s, e := Render(front, body), 4 + |front|;
      && |s| == e + 5 + |body|
      && s[..3] == "---" && s[3] == '\n'
      && s[4..e] == front && s[e..e + 4] == "\n---" && s[e + 4] == '\n' && s[e + 5..] == body
  {
  }

  /** Only the opening with no extra spaces matches a plain rendering. */
  lemma PlainOpening(front: string, body: string, a: int)
    requires Plain(front, body) && Opens(Render(front, body), a)
    ensures a == 0
  {
    var s := Render(front, body);
    RenderLayout(front, body);
  }

  /** No closing delimiter occurs inside a plain block. */
  lemma PlainNoEarlyClose(front: string, body: string, x: int, b: int)
    requires Plain(front, body) && 4 <= x < 4 + |front|
    ensures !Closes(Render(front, body), x, b)
  {
    var s, e := Render(front, body), 4 + |front|;
    RenderLayout(front, body);
    if x + 4 <= e {
      assert s[x..x + 4] == front[x - 4..x];
      assert !IsAt(front, "\n---", x - 4);
    } else {
      assert s[x..x + 4][e - x] == s[e] == '\n';
    }
  }

  /** After the closing delimiter of a plain rendering the second `\s*`
      takes nothing. */
  lemma PlainClose(front: string, body: string, b: int)
    requires Plain(front, body) && Closes(Render(front, body), 4 + |front|, b)
    ensures b == 0
  {
    var s, e := Render(front, body), 4 + |front|;
    RenderLayout(front, body);
  }

  /** The match found in a plain rendering. */
  lemma PlainMatch(front: string, body: string)
    requires Plain(front, body)
    ensures MatchFrontmatter(Render(front, body)) == Some(Choice(0, 4 + |front|, 0))
  {
    var s, e := Render(front, body), 4 + |front|;
    RenderLayout(front, body);
    assert Spaces(s, e + 4, e + 4);
    assert Matches(s, 0, e, 0);
    var c := MatchFrontmatter(s).value;
    PlainOpening(front, body, c.a);
    if c.e < e {
      PlainNoEarlyClose(front, body, c.e, c.b);
    }
    assert c.e == e;
    PlainClose(front, body, c.b);
  }

  /** A plain rendering parses back into its block's lines and its body. */
  lemma FrontmatterRoundTrip(front: string, body: string)
    requires Plain(front, body)
    ensures ParseFrontmatter(Render(front, body)) == Document(ParseLines(Split(front, '\n')), body)
  {
    var s, e := Render(front, body), 4 + |front|;
    PlainMatch(front, body);
    RenderLayout(front, body);
    assert ParseFrontmatter(s) == FromMatch(s, 0, e, 0);
  }
}

=== FILE: guides.dfy ===
/** The pure helpers of the content loader: guide search, the category
    filter, the list of guide categories, and the slug of a content path. */
module Guides {
  import opened Wrappers
  import opened Sequences
  import opened Text

  /** The fields of a loaded guide the helpers read. Title, category and
      tags come from the frontmatter and may be missing. The loader also
      sets a slug from the file path (see `Slug`); no helper reads it. */
  datatype Guide = Guide(
    title: Option<string>,
    category: Option<string>,
    tags: Option<seq<string>>,
    rawContent: Option<string>)

  // ---------------------------------------------------------------------------
  // searchGuides

  /** Some tag contains the lower-cased term, ignoring case. */
  predicate AnyTagContains(tags: seq<string>, search: string)
  {
    exists i :: 0 <= i < |tags| && Contains(Lower(tags[i]), search)
  }

  /** The lower-cased term occurs in the title, the markdown text, a tag or
      the category, ignoring case. */
  predicate GuideMatches(g: Guide, search: string)
  {
    || (g.title.Some? && Contains(Lower(g.title.value), search))
    || (g.rawContent.Some? && Contains(Lower(g.rawContent.value), search))
    || (g.tags.Some? && AnyTagContains(g.tags.value, search))
    || (g.category.Some? && Contains(Lower(g.category.value), search))
  }

  function FilterMatching(guides: seq<Guide>, search: string): (r: seq<Guide>)
    ensures IsSubsequence(r, guides)
    ensures forall g :: g in r <==> g in guides && GuideMatches(g, search)
    ensures forall g :: multiset(r)[g] == if GuideMatches(g, search) then multiset(guides)[g] else 0
    decreases |guides|
  {
    if |guides| == 0 then []
    else
      var rest := FilterMatching(guides[1..], search);
      assert guides == [guides[0]] + guides[1..];
      assert forall g :: g in guides <==> g == guides[0] || g in guides[1..];
      if GuideMatches(guides[0], search) then [guides[0]] + rest
      else
        SubsequenceOfTail(rest, guides);
        rest
  }

  /** `searchGuides`: a blank query keeps every guide; any other query is
      lower-cased, but not trimmed, and keeps the matching guides in order. */
  function SearchGuides(guides: seq<Guide>, query: string): (r: seq<Guide>)
    ensures Trim(query) == "" ==> r == guides
    ensures IsSubsequence(r, guides)
    ensures Trim(query) != "" ==> forall g :: g in r <==> g in guides && GuideMatches(g, Lower(query))
    ensures Trim(query) != "" ==>
              forall g :: multiset(r)[g] == if GuideMatches(g, Lower(query)) then multiset(guides)[g] else 0
  {
    SubsequenceReflexive(guides);
    if Trim(query) == "" then guides else FilterMatching(guides, Lower(query))
  }

  /** Queries that differ only in letter case find the same guides. */
  lemma SearchGuidesIgnoresCase(guides: seq<Guide>, query1: string, query2: string)
    requires Lower(query1) == Lower(query2)
    ensures SearchGuides(guides, query1) == SearchGuides(guides, query2)
  {
    TrimEmptyUnderLower(query1);
    TrimEmptyUnderLower(query2);
  }

  // ---------------------------------------------------------------------------
  // filterGuidesByCategory

  /** The argument imposes no restriction: missing, empty or `all`. */
  predicate NoCategoryFilter(category: Option<string>)
  {
    !Truthy(category) || category == Some("all")
  }

  function FilterCategory(guides: seq<Guide>, category: string): (r: seq<Guide>)
    ensures IsSubsequence(r, guides)
    ensures forall g :: g in r <==> g in guides && g.category == Some(category)
    ensures forall g :: multiset(r)[g] == if g.category == Some(category) then multiset(guides)[g] else 0
    decreases |guides|
  {
    if |guides| == 0 then []
    else
      var rest := FilterCategory(guides[1..], category);
      assert guides == [guides[0]] + guides[1..];
      assert forall g :: g in guides <==> g == guides[0] || g in guides[1..];
      if guides[0].category == Some(category) then [guides[0]] + rest
      else
        SubsequenceOfTail(rest, guides);
        rest
  }

  /** `filterGuidesByCategory`: the identity without a restriction,
      otherwise the guides of exactly that category, in order. */
  function FilterGuidesByCategory(guides: seq<Guide>, category: Option<string>): (r: seq<Guide>)
    ensures NoCategoryFilter(category) ==> r == guides
    ensures IsSubsequence(r, guides)
    ensures !NoCategoryFilter(category) ==> forall g :: g in r <==> g in guides && g.category == category
    ensures !NoCategoryFilter(category) ==>
              forall g :: multiset(r)[g] == if g.category == category then multiset(guides)[g] else 0
  {
    SubsequenceReflexive(guides);
    if NoCategoryFilter(category) then guides else FilterCategory(guides, category.value)
  }

  // ---------------------------------------------------------------------------
  // getGuideCategories

  /** `guides.map(guide => guide.category)`. */
  function CategoriesOf(guides: seq<Guide>): (cs: seq<Option<string>>)
    ensures |cs| == |guides|
    ensures forall i :: 0 <= i < |guides| ==> cs[i] == guides[i].category
  {
    seq(|guides|, i requires 0 <= i < |guides| => guides[i].category)
  }

  /** Each category wrapped back into a present field. */
  function Present(cats: seq<string>): (fs: seq<Option<string>>)
    ensures |fs| == |cats|
    ensures forall i :: 0 <= i < |cats| ==> fs[i] == Some(cats[i])
  {
    seq(|cats|, i requires 0 <= i < |cats| => Some(cats[i]))
  }

  /** `.filter(Boolean)` on the category fields: the non-empty present
      ones in order, each with all its copies. */
  function Truthies(cs: seq<Option<string>>): (cats: seq<string>)
    ensures forall c :: c in cats <==> c != "" && Some(c) in cs
    ensures forall k :: 0 <= k < |cats| ==> cats[k] != ""
    ensures IsSubsequence(Present(cats), cs)
    decreases |cs|
  {
    if |cs| == 0 then []
    else
      var rest := Truthies(cs[1..]);
      assert cs == [cs[0]] + cs[1..];
      if Truthy(cs[0]) then
        var cats := [cs[0].value] + rest;
        assert Present(cats) == [cs[0]] + Present(rest);
        cats
      else
        SubsequenceOfTail(Present(rest), cs);
        rest
  }

  /** Each non-empty category is kept with all its copies. */
  lemma {:induction false} TruthiesCount(cs: seq<Option<string>>, c: string)
    requires c != ""
    ensures multiset(Truthies(cs))[c] == multiset(cs)[Some(c)]
    decreases |cs|
  {
    if |cs| > 0 {
      var rest := Truthies(cs[1..]);
      TruthiesCount(cs[1..], c);
      assert cs == [cs[0]] + cs[1..];
      assert multiset(cs) == multiset{cs[0]} + multiset(cs[1..]);
      if Truthy(cs[0]) {
        assert Truthies(cs) == [cs[0].value] + rest;
        assert multiset(Truthies(cs)) == multiset{cs[0].value} + multiset(rest);
      } else {
        assert Truthies(cs) == rest && cs[0] != Some(c);
      }
    }
  }

  /** Two categories come first in the filtered list in the order in which
      they first appear among the fields. */
  lemma {:induction false} TruthiesFirstIndex(cs: seq<Option<string>>, c: string, d: string)
    requires c in Truthies(cs) && d in Truthies(cs)
    ensures Some(c) in cs && Some(d) in cs
    ensures FirstIndex(Truthies(cs), c) < FirstIndex(Truthies(cs), d) ==>
              FirstIndex(cs, Some(c)) < FirstIndex(cs, Some(d))
    decreases |cs|
  {
    var cats, cats' := Truthies(cs), Truthies(cs[1..]);
    if Truthy(cs[0]) {
      var v := cs[0].value;
      assert cats == [v] + cats';
      if c != v && d != v {
        TruthiesFirstIndex(cs[1..], c, d);
      } else if c != v {
        TruthiesFirstIndex(cs[1..], c, c);
      } else if d != v {
        TruthiesFirstIndex(cs[1..], d, d);
      }
    } else {
      assert cats == cats';
      TruthiesFirstIndex(cs[1..], c, d);
    }
  }

  /** `guides.map(guide => guide.category).filter(Boolean)`. */
  function TruthyCategories(guides: seq<Guide>): (cats: seq<string>)
    ensures forall c :: c in cats <==> exists g :: g in guides && Truthy(g.category) && g.category.value == c
    ensures forall k :: 0 <= k < |cats| ==> cats[k] != ""
    ensures IsSubsequence(Present(cats), CategoriesOf(guides))
    ensures forall c :: c != "" ==> multiset(cats)[c] == multiset(CategoriesOf(guides))[Some(c)]
  {
    var cs := CategoriesOf(guides);
    forall c
      ensures Some(c) in cs <==> exists g :: g in guides && g.category == Some(c)
    {
      if Some(c) in cs {
        var i :| 0 <= i < |cs| && cs[i] == Some(c);
        assert guides[i] in guides;
      }
    }
    forall c | c != ""
      ensures multiset(Truthies(cs))[c] == multiset(cs)[Some(c)]
    {
      TruthiesCount(cs, c);
    }
    Truthies(cs)
  }

  /** The first index of an element of a prefix is its first index in the prefix. */
  lemma FirstIndexPrefix<T>(s: seq<T>, k: nat, x: T)
    requires k <= |s| && x in s[..k]
    ensures x in s && FirstIndex(s, x) == FirstIndex(s[..k], x)
  {
    var i, j := FirstIndex(s, x), FirstIndex(s[..k], x);
    assert s[j] == x;
    assert s[..k][i] == x by {
      assert i <= j;
    }
  }

  /** `[...new Set(s)]`: each element once, in order of first occurrence. */
  function Dedup(s: seq<string>): (r: seq<string>)
    ensures NoDuplicates(r)
    ensures forall x :: x in r <==> x in s
    ensures forall i, j :: 0 <= i < j < |r| ==> FirstIndex(s, r[i]) < FirstIndex(s, r[j])
    decreases |s|
  {
    if |s| == 0 then []
    else
      var init := s[..|s| - 1];
      var d := Dedup(init);
      var x := s[|s| - 1];
      assert s == init + [x];
      assert forall y :: y in s <==> y in init || y == x;
      forall y | y in init
        ensures FirstIndex(s, y) == FirstIndex(init, y)
      {
        FirstIndexPrefix(s, |s| - 1, y);
      }
      if x in d then d
      else
        var r := d + [x];
        forall i, j | 0 <= i < j < |r|
          ensures FirstIndex(s, r[i]) < FirstIndex(s, r[j])
        {
          if j == |d| {
            assert FirstIndex(s, x) == |s| - 1;
            assert r[i] in init;
          }
        }
        r
  }

  /** `getGuideCategories`: every truthy category once, in order of first
      appearance. */
  function GuideCategories(guides: seq<Guide>): (r: seq<string>)
    ensures NoDuplicates(r)
    ensures forall c :: c in r <==> exists g :: g in guides && Truthy(g.category) && g.category.value == c
    ensures forall i, j :: 0 <= i < j < |r| ==>
              && r[i] in TruthyCategories(guides) && r[j] in TruthyCategories(guides)
              && FirstIndex(TruthyCategories(guides), r[i]) < FirstIndex(TruthyCategories(guides), r[j])
    ensures forall i, j :: 0 <= i < j < |r| ==>
              && Some(r[i]) in CategoriesOf(guides) && Some(r[j]) in CategoriesOf(guides)
              && FirstIndex(CategoriesOf(guides), Some(r[i])) < FirstIndex(CategoriesOf(guides), Some(r[j]))
  {
    var r := Dedup(TruthyCategories(guides));
    forall i, j | 0 <= i < j < |r|
      ensures && Some(r[i]) in CategoriesOf(guides) && Some(r[j]) in CategoriesOf(guides)
              && FirstIndex(CategoriesOf(guides), Some(r[i])) < FirstIndex(CategoriesOf(guides), Some(r[j]))
    {
      TruthiesFirstIndex(CategoriesOf(guides), r[i], r[j]);
    }
    r
  }

  // ---------------------------------------------------------------------------
  // Slug

  /** The last piece of a split is a suffix of the string, preceded by the
      separator unless it is the whole string. */
  lemma {:induction false} SplitLast(s: string, c: char)
    ensures var parts := Split(s, c); var last := parts[|parts| - 1];
      && |last| <= |s| && last == s[|s| - |last|..]
      && (|last| < |s| ==> s[|s| - |last| - 1] == c)
    decreases |s|
  {
    if |s| > 0 {
      SplitLast(s[1..], c);
      var t := s[1..];
      var rest := Split(t, c);
      var lastR := rest[|rest| - 1];
      assert t[|t| - |lastR|..] == s[|s| - |lastR|..];
      if |lastR| < |t| {
        assert t[|t| - |lastR| - 1] == s[|s| - |lastR| - 1];
      }
      CountZero(t, c);
      if s[0] != c {
        if |rest| == 1 {
          assert lastR == t;
          assert [s[0]] + t == s;
        } else {
          assert c in t;
          assert lastR != t;
        }
      }
    }
  }

  /** `split('/').pop()`: the text after the last `/`. */
  function LastSegment(path: string): (seg: string)
    ensures '/' !in seg
    ensures |seg| <= |path| && seg == path[|path| - |seg|..]
    ensures |seg| < |path| ==> path[|path| - |seg| - 1] == '/'
  {
    var parts := Split(path, '/');
    SplitLast(path, '/');
    parts[|parts| - 1]
  }

  /** The slug of a content file: its last path segment with the first
      `.md` removed. */
  function Slug(path: string): (slug: string)
    ensures '/' !in slug
  {
    var seg := LastSegment(path);
    var r := RemoveFirst(seg, ".md");
    assert forall ch :: ch in r ==> ch in seg by {
      if Contains(seg, ".md") {
        var i := IndexOf(seg, ".md");
        assert r == seg[..i] + seg[i + 3..];
      }
    }
    r
  }

  /** The last segment of a path is what follows its last `/`. */
  lemma LastSegmentAfterSlash(dir: string, file: string)
    requires '/' !in file
    ensures LastSegment(dir + "/" + file) == file
  {
    SplitAppend(dir, file, '/');
    assert dir + "/" + file == dir + ['/'] + file;
    SplitWithoutSeparator(file, '/');
  }

  /** Removing the first `.md` of `name + ".md"` leaves `name` when `name`
      has none of its own. */
  lemma {:induction false} RemoveExtension(name: string)
    requires !Contains(name, ".md")
    ensures RemoveFirst(name + ".md", ".md") == name
  {
    var file := name + ".md";
    var n := |name|;
    assert IsAt(file, ".md", n);
    forall j | 0 <= j < n
      ensures !IsAt(file, ".md", j)
    {
      if j + 3 <= n {
        assert file[j..j + 3] == name[j..j + 3];
        assert !IsAt(name, ".md", j);
      } else {
        assert file[n] == '.';
        assert file[j..j + 3][n - j] == '.';
      }
    }
    assert FirstAt(file, ".md", n);
    assert file[..n] == name && file[n + 3..] == "";
  }

  /** The loader's path for a guide named `name` yields `name` back as the
      slug, whatever directory it sits in. */
  lemma SlugOfContentPath(dir: string, name: string)
    requires '/' !in name && !Contains(name, ".md")
    ensures Slug(dir + "/" + name + ".md") == name
  {
    assert dir + "/" + name + ".md" == dir + "/" + (name + ".md");
    LastSegmentAfterSlash(dir, name + ".md");
    RemoveExtension(name);
  }
}

=== FILE: location_filter.dfy ===
/** The campus map component: the derivation of the visible locations from
    the loaded location list, the selected categories and the search term;
    the marker icon chosen for a category; and the optional sections of a
    location's popup. */
module LocationFilter {
  import opened Wrappers
  import opened Sequences
  import opened Text

  /** One entry of the `locations` list of the map data. The coordinates are
      carried along but never inspected. */
  datatype Location = Location(
    id: int,
    name: string,
    lat: real,
    lng: real,
    category: string,
    description: string,
    history: Option<string>,
    currentUse: Option<string>,
    tips: Option<string>,
    permits: Option<string>,
    organizeHere: bool)

  /** One value of the `categories` table of the map data. */
  datatype Category = Category(name: string, color: string, icon: string, description: string)

  type CategoryTable = map<string, Category>

  /** The selection key meaning "no category restriction". */
  const All: string := "all"

  // ---------------------------------------------------------------------------
  // The filter effect

  /** The category stage runs only for a non-empty selection without `All`. */
  predicate RestrictsCategories(selected: seq<string>)
  {
    |selected| > 0 && All !in selected
  }

  /** A location survives the category stage. */
  predicate CategoryPass(selected: seq<string>, l: Location)
  {
    !RestrictsCategories(selected) || l.category in selected
  }

  /** The lower-cased term `search` occurs in the lower-cased name or
      description, or in the history or current use when present. */
  predicate MatchesSearch(l: Location, search: string)
  {
    || Contains(Lower(l.name), search)
    || Contains(Lower(l.description), search)
    || (l.history.Some? && Contains(Lower(l.history.value), search))
    || (l.currentUse.Some? && Contains(Lower(l.currentUse.value), search))
  }

  /** A location survives the search stage: the term is empty, or it matches
      without regard to letter case. The term is not trimmed. */
  predicate SearchPass(searchTerm: string, l: Location)
  {
    searchTerm == "" || MatchesSearch(l, Lower(searchTerm))
  }

  /** `filter(location => selectedCategories.includes(location.category))`. */
  function FilterByCategory(locs: seq<Location>, selected: seq<string>): (r: seq<Location>)
    ensures IsSubsequence(r, locs)
    ensures forall l :: l in r <==> l in locs && l.category in selected
    ensures forall l :: multiset(r)[l] == if l.category in selected then multiset(locs)[l] else 0
    decreases |locs|
  {
    if |locs| == 0 then []
    else
      var rest := FilterByCategory(locs[1..], selected);
      assert locs == [locs[0]] + locs[1..];
      assert forall l :: l in locs <==> l == locs[0] || l in locs[1..];
      if locs[0].category in selected then [locs[0]] + rest
      else
        SubsequenceOfTail(rest, locs);
        rest
  }

  /** The search filter over an already lower-cased term. */
  function FilterBySearch(locs: seq<Location>, search: string): (r: seq<Location>)
    ensures IsSubsequence(r, locs)
    ensures forall l :: l in r <==> l in locs && MatchesSearch(l, search)
    ensures forall l :: multiset(r)[l] == if MatchesSearch(l, search) then multiset(locs)[l] else 0
    decreases |locs|
  {
    if |locs| == 0 then []
    else
      var rest := FilterBySearch(locs[1..], search);
      assert locs == [locs[0]] + locs[1..];
      assert forall l :: l in locs <==> l == locs[0] || l in locs[1..];
      if MatchesSearch(locs[0], search) then [locs[0]] + rest
      else
        SubsequenceOfTail(rest, locs);
        rest
  }

  /** The filter effect: the category stage, then the search stage. */
  function VisibleLocations(locs: seq<Location>, selected: seq<string>, searchTerm: string): (r: seq<Location>)
    ensures IsSubsequence(r, locs)
    ensures forall l :: l in r <==> l in locs && CategoryPass(selected, l) && SearchPass(searchTerm, l)
    ensures forall l :: multiset(r)[l] ==
              if CategoryPass(selected, l) && SearchPass(searchTerm, l) then multiset(locs)[l] else 0
    ensures !RestrictsCategories(selected) && searchTerm == "" ==> r == locs
    ensures |locs| == 0 ==> r == []
  {
    var byCategory := if RestrictsCategories(selected) then FilterByCategory(locs, selected) else locs;
    SubsequenceReflexive(locs);
    if searchTerm != "" then
      var r := FilterBySearch(byCategory, Lower(searchTerm));
      SubsequenceTransitive(r, byCategory, locs);
      r
    else byCategory
  }

  /** Reference definition: one pass keeping exactly the locations that pass
      both stages, in input order. */
  function Passing(locs: seq<Location>, selected: seq<string>, searchTerm: string): (r: seq<Location>)
    ensures |r| <= |locs|
    decreases |locs|
  {
    if |locs| == 0 then []
    else if CategoryPass(selected, locs[0]) && SearchPass(searchTerm, locs[0]) then
      [locs[0]] + Passing(locs[1..], selected, searchTerm)
    else Passing(locs[1..], selected, searchTerm)
  }

  /** The two stages joined by AND give exactly the one-pass conjunction,
      order and multiplicities included. */
  lemma {:induction false} VisibleIsConjunction(locs: seq<Location>, selected: seq<string>, searchTerm: string)
    ensures VisibleLocations(locs, selected, searchTerm) == Passing(locs, selected, searchTerm)
    decreases |locs|
  {
    if |locs| > 0 {
      VisibleIsConjunction(locs[1..], selected, searchTerm);
      var l0 := locs[0];
      var stage1 := if RestrictsCategories(selected) then FilterByCategory(locs, selected) else locs;
      var stage1Rest := if RestrictsCategories(selected) then FilterByCategory(locs[1..], selected) else locs[1..];
      var head := if CategoryPass(selected, l0) then [l0] else [];
      assert stage1 == head + stage1Rest;
      if searchTerm != "" && CategoryPass(selected, l0) {
        assert stage1[1..] == stage1Rest;
      }
    }
  }

  /** Narrowing the categories narrows the result: whatever a selection shows
      is, in the same order, shown under the unrestricted selection. */
  lemma {:induction false} SelectionNarrows(locs: seq<Location>, selected: seq<string>, searchTerm: string)
    ensures IsSubsequence(VisibleLocations(locs, selected, searchTerm), VisibleLocations(locs, [All], searchTerm))
  {
    VisibleIsConjunction(locs, selected, searchTerm);
    VisibleIsConjunction(locs, [All], searchTerm);
    PassingNarrows(locs, selected, searchTerm);
  }

  lemma {:induction false} PassingNarrows(locs: seq<Location>, selected: seq<string>, searchTerm: string)
    ensures IsSubsequence(Passing(locs, selected, searchTerm), Passing(locs, [All], searchTerm))
    decreases |locs|
  {
    if |locs| > 0 {
      PassingNarrows(locs[1..], selected, searchTerm);
      var a := Passing(locs[1..], selected, searchTerm);
      var b := Passing(locs[1..], [All], searchTerm);
      if SearchPass(searchTerm, locs[0]) {
        assert CategoryPass([All], locs[0]);
        if !CategoryPass(selected, locs[0]) {
          SubsequenceOfTail(a, [locs[0]] + b);
        }
      }
    }
  }

  /** Search terms that differ only in letter case give the same result. */
  lemma SearchIgnoresCase(locs: seq<Location>, selected: seq<string>, term1: string, term2: string)
    requires Lower(term1) == Lower(term2)
    ensures VisibleLocations(locs, selected, term1) == VisibleLocations(locs, selected, term2)
  {
    assert |term1| == |Lower(term1)|;
  }

  /** In particular a term and its lower-cased form give the same result. */
  lemma SearchLowerCased(locs: seq<Location>, selected: seq<string>, term: string)
    ensures VisibleLocations(locs, selected, Lower(term)) == VisibleLocations(locs, selected, term)
  {
    LowerIdempotent(term);
    SearchIgnoresCase(locs, selected, Lower(term), term);
  }

  /** An empty selection imposes no restriction: it behaves as `[All]`. */
  lemma EmptySelectionShowsAll(locs: seq<Location>, searchTerm: string)
    ensures VisibleLocations(locs, [], searchTerm) == VisibleLocations(locs, [All], searchTerm)
  {
  }

  // A two-location example: a park, and a library whose category is
  // missing from the table.

  const Park: Location := Location(1, "Old Park", 44.045, -123.075, "park", "x", None, None, None, None, true)
  const Library: Location := Location(2, "Library", 44.043, -123.077, "lib", "books", None, None, None, None, false)

  /** Without restriction both show, in order; selecting `park` shows the park. */
  lemma ExampleCategories()
    ensures VisibleLocations([Park, Library], [All], "") == [Park, Library]
    ensures VisibleLocations([Park, Library], ["park"], "") == [Park]
  {
    var locs := [Park, Library];
    assert locs[1..] == [Library] && locs[1..][1..] == [];
    assert RestrictsCategories(["park"]) && !RestrictsCategories([All]);
    assert FilterByCategory(locs[1..], ["park"]) == [];
    assert FilterByCategory(locs, ["park"]) == [Park];
  }

  /** "book" occurs only in the library's description. */
  lemma ExampleSearch()
    ensures VisibleLocations([Park, Library], [All], "book") == [Library]
  {
    var locs := [Park, Library];
    assert Lower("book") == "book";
    BookMatches();
    assert locs[1..] == [Library] && locs[1..][1..] == [];
    assert FilterBySearch(locs[1..], "book") == [Library];
    assert FilterBySearch(locs, "book") == [Library];
  }

  /** The search step of the example, location by location. */
  lemma BookMatches()
    ensures !MatchesSearch(Park, "book") && MatchesSearch(Library, "book")
  {
    assert Lower("Old Park") == "old park";
    assert Lower("Library") == "library";
    assert Lower("x") == "x" && Lower("books") == "books";
    MissingCharNotContained("old park", "book", 0);
    MissingCharNotContained("x", "book", 0);
    MissingCharNotContained("library", "book", 1);
    assert IsAt("books", "book", 0);
  }

  /** A single space is searched for literally: only the park's name has one. */
  lemma ExampleBlankSearch()
    ensures VisibleLocations([Park, Library], [All], " ") == [Park]
  {
    var locs := [Park, Library];
    assert Lower("Old Park") == "old park";
    assert Lower("Library") == "library";
    assert Lower("books") == "books" && Lower(" ") == " ";
    assert IsAt("old park", " ", 3);
    MissingCharNotContained("library", " ", 0);
    MissingCharNotContained("books", " ", 0);
    assert MatchesSearch(Park, " ") && !MatchesSearch(Library, " ");
    assert locs[1..] == [Library] && locs[1..][1..] == [];
    assert FilterBySearch(locs[1..], " ") == [];
    assert FilterBySearch(locs, " ") == [Park];
  }

  // ---------------------------------------------------------------------------
  // Marker icon

  /** A marker icon: the library default, or a styled `divIcon`. */
  datatype Icon =
    | DefaultIcon
    | DivIcon(className: string, color: string, glyph: string,
              iconSize: (int, int), iconAnchor: (int, int), popupAnchor: (int, int))

  /** `createCustomIcon`: a 30x30 pin in the category's colour showing its
      glyph, or the default marker when the category is not in the table. */
  function CreateCustomIcon(category: string, categories: CategoryTable): (icon: Icon)
    ensures icon.DefaultIcon? <==> category !in categories
    ensures category in categories ==>
              icon.color == categories[category].color && icon.glyph == categories[category].icon
    ensures icon.DivIcon? ==>
              && icon.className == "custom-marker"
              && icon.iconSize == (30, 30)
              && icon.iconAnchor == (icon.iconSize.0 / 2, icon.iconSize.1)
              && icon.popupAnchor == (0, -icon.iconSize.1)
  {
    if category !in categories then DefaultIcon
    else
      var cat := categories[category];
      DivIcon("custom-marker", cat.color, cat.icon, (30, 30), (15, 30), (0, -30))
  }

  /** The library's category is missing from the table: it gets the default
      marker and an empty badge. */
  lemma ExampleMissingCategory()
    ensures var table := map["park" := Category("Park", "#0f0", "tree", "")];
      && CreateCustomIcon(Library.category, table) == DefaultIcon
      && CreateCustomIcon(Park.category, table).color == "#0f0"
      && BuildPopup(Library, table).badge == Badge(None, None, None)
  {
  }

  // ---------------------------------------------------------------------------
  // Popup content

  datatype SectionKind = HistorySection | CurrentUseSection | TipsSection | PermitsSection

  /** One optional popup section with the text it shows. */
  datatype Section = Section(kind: SectionKind, text: string)

  /** The category badge; each part is absent when the category is not in the table. */
  datatype Badge = Badge(color: Option<string>, icon: Option<string>, name: Option<string>)

  datatype Indicator = GoodForOrganizing | NotForOrganizing

  datatype Popup = Popup(title: string, badge: Badge, description: string,
                         sections: seq<Section>, indicator: Indicator)

  /** The location field a section kind displays. */
  function Field(l: Location, k: SectionKind): Option<string>
  {
    match k
    case HistorySection => l.history
    case CurrentUseSection => l.currentUse
    case TipsSection => l.tips
    case PermitsSection => l.permits
  }

  /** The position of a section kind in the popup. */
  function Rank(k: SectionKind): nat
  {
    match k
    case HistorySection => 0
    case CurrentUseSection => 1
    case TipsSection => 2
    case PermitsSection => 3
  }

  function Optional(l: Location, k: SectionKind): seq<Section>
  {
    if Truthy(Field(l, k)) then [Section(k, Field(l, k).value)] else []
  }

  /** Some section of `ss` has kind `k`. */
  predicate HasSection(ss: seq<Section>, k: SectionKind)
  {
    exists i :: 0 <= i < |ss| && ss[i].kind == k
  }

  lemma HasSectionConcat(a: seq<Section>, b: seq<Section>, k: SectionKind)
    ensures HasSection(a + b, k) <==> HasSection(a, k) || HasSection(b, k)
  {
    if HasSection(b, k) {
      var i :| 0 <= i < |b| && b[i].kind == k;
      assert (a + b)[|a| + i].kind == k;
    }
    if HasSection(a, k) {
      var i :| 0 <= i < |a| && a[i].kind == k;
      assert (a + b)[i].kind == k;
    }
    if HasSection(a + b, k) {
      var i :| 0 <= i < |a + b| && (a + b)[i].kind == k;
      if i < |a| {
        assert a[i].kind == k;
      } else {
        assert b[i - |a|].kind == k;
      }
    }
  }

  /** A section list built by `Optional` shows only its own kind. */
  lemma HasOptional(l: Location, k: SectionKind, k': SectionKind)
    ensures HasSection(Optional(l, k'), k) <==> k == k' && Truthy(Field(l, k))
  {
    if k == k' && Truthy(Field(l, k)) {
      assert Optional(l, k')[0].kind == k;
    }
  }

  /** `categories[location.category]?.…` for the badge: all three parts or
      none, and the same colour and glyph as the marker. */
  function BadgeOf(category: string, categories: CategoryTable): (b: Badge)
    ensures b.color.Some? == b.icon.Some? == b.name.Some?
    ensures b.color.Some? <==> CreateCustomIcon(category, categories).DivIcon?
    ensures b.color.Some? ==>
              && b.color.value == CreateCustomIcon(category, categories).color
              && b.icon.value == CreateCustomIcon(category, categories).glyph
  {
    if category in categories then
      Badge(Some(categories[category].color), Some(categories[category].icon), Some(categories[category].name))
    else Badge(None, None, None)
  }

  /** The section kinds in the order the popup lists them. */
  const Kinds: seq<SectionKind> := [HistorySection, CurrentUseSection, TipsSection, PermitsSection]

  /** Strictly increasing ranks. */
  predicate Ordered(kinds: seq<SectionKind>)
  {
    forall i, j :: 0 <= i < j < |kinds| ==> Rank(kinds[i]) < Rank(kinds[j])
  }

  /** The sections shown for `kinds`: one per truthy field, in the order of `kinds`. */
  function SectionsOf(l: Location, kinds: seq<SectionKind>): (ss: seq<Section>)
    ensures |ss| <= |kinds|
    decreases |kinds|
  {
    if |kinds| == 0 then [] else Optional(l, kinds[0]) + SectionsOf(l, kinds[1..])
  }

  /** Every section shows the field of its own kind. */
  lemma {:induction false} SectionsShowTheirField(l: Location, kinds: seq<SectionKind>)
    ensures forall i :: 0 <= i < |SectionsOf(l, kinds)| ==>
              var s := SectionsOf(l, kinds)[i]; s.kind in kinds && Field(l, s.kind) == Some(s.text)
    decreases |kinds|
  {
    if |kinds| > 0 {
      SectionsShowTheirField(l, kinds[1..]);
      var head := Optional(l, kinds[0]);
      var rest := SectionsOf(l, kinds[1..]);
      var ss: seq<Section> := head + rest;
      assert SectionsOf(l, kinds) == ss;
      forall i | 0 <= i < |ss|
        ensures ss[i].kind in kinds && Field(l, ss[i].kind) == Some(ss[i].text)
      {
        if i >= |head| {
          assert ss[i] == rest[i - |head|];
          assert rest[i - |head|].kind in kinds[1..];
        }
      }
    }
  }

  /** A kind is shown exactly when it is listed and its field is truthy. */
  lemma {:induction false} SectionsShowTruthyFields(l: Location, kinds: seq<SectionKind>, k: SectionKind)
    ensures HasSection(SectionsOf(l, kinds), k) <==> k in kinds && Truthy(Field(l, k))
    decreases |kinds|
  {
    if |kinds| > 0 {
      SectionsShowTruthyFields(l, kinds[1..], k);
      HasSectionConcat(Optional(l, kinds[0]), SectionsOf(l, kinds[1..]), k);
      HasOptional(l, k, kinds[0]);
      assert k in kinds <==> k == kinds[0] || k in kinds[1..];
    }
  }

  /** Sections follow the order of `kinds`. */
  lemma {:induction false} SectionsKeepOrder(l: Location, kinds: seq<SectionKind>)
    requires Ordered(kinds)
    ensures forall i, j :: 0 <= i < j < |SectionsOf(l, kinds)| ==>
              Rank(SectionsOf(l, kinds)[i].kind) < Rank(SectionsOf(l, kinds)[j].kind)
    decreases |kinds|
  {
    if |kinds| > 0 {
      SectionsKeepOrder(l, kinds[1..]);
      SectionsShowTheirField(l, kinds[1..]);
      var head := Optional(l, kinds[0]);
      var rest := SectionsOf(l, kinds[1..]);
      assert SectionsOf(l, kinds) == head + rest;
      forall i | 0 <= i < |rest|
        ensures Rank(kinds[0]) < Rank(rest[i].kind)
      {
        var m :| 0 <= m < |kinds[1..]| && kinds[1..][m] == rest[i].kind;
        assert kinds[m + 1] == rest[i].kind;
      }
    }
  }

  lemma KindsComplete(k: SectionKind)
    ensures k in Kinds
  {
    match k
    case HistorySection => assert Kinds[0] == k;
    case CurrentUseSection => assert Kinds[1] == k;
    case TipsSection => assert Kinds[2] == k;
    case PermitsSection => assert Kinds[3] == k;
  }

  /** The popup of one marker. */
  function BuildPopup(l: Location, categories: CategoryTable): (p: Popup)
    ensures p.title == l.name && p.description == l.description
    ensures forall k :: HasSection(p.sections, k) <==> Truthy(Field(l, k))
    ensures forall i :: 0 <= i < |p.sections| ==> Field(l, p.sections[i].kind) == Some(p.sections[i].text)
    ensures forall i, j :: 0 <= i < j < |p.sections| ==> Rank(p.sections[i].kind) < Rank(p.sections[j].kind)
    ensures p.indicator == GoodForOrganizing <==> l.organizeHere
    ensures p.badge.color.Some? <==> l.category in categories
    ensures l.category !in categories ==> p.badge == Badge(None, None, None)
    ensures l.category in categories ==>
              p.badge == Badge(Some(categories[l.category].color), Some(categories[l.category].icon),
                               Some(categories[l.category].name))
  {
    var sections := SectionsOf(l, Kinds);
    forall k
      ensures HasSection(sections, k) <==> Truthy(Field(l, k))
    {
      KindsComplete(k);
      SectionsShowTruthyFields(l, Kinds, k);
    }
    SectionsShowTheirField(l, Kinds);
    SectionsKeepOrder(l, Kinds);
    Popup(l.name, BadgeOf(l.category, categories), l.description, sections,
          if l.organizeHere then GoodForOrganizing else NotForOrganizing)
  }
}

=== FILE: map_page.dfy ===
/** The campus map page: the category-toggle state machine behind the filter
    buttons, and the page state around it (search term, selected location,
    legend visibility). */
module MapPage {
  import opened Wrappers
  import opened Sequences
  import opened Text
  import opened LocationFilter

  // ---------------------------------------------------------------------------
  // Category toggle

  /** `filter(cat => cat !== x)`. */
  function Without(s: seq<string>, x: string): (r: seq<string>)
    ensures x !in r
    ensures forall y :: y != x ==> (y in r <==> y in s)
    ensures IsSubsequence(r, s)
    ensures x !in s ==> r == s
    ensures forall y :: multiset(r)[y] == if y == x then 0 else multiset(s)[y]
    decreases |s|
  {
    if |s| == 0 then []
    else
      var rest := Without(s[1..], x);
      assert s == [s[0]] + s[1..];
      assert forall y :: y in s <==> y == s[0] || y in s[1..];
      if s[0] == x then
        SubsequenceOfTail(rest, s);
        rest
      else
        [s[0]] + rest
  }

  /** Removing `x` after appending `x` removes just the appended copy when
      there was none before. */
  lemma {:induction false} WithoutAppended(s: seq<string>, x: string)
    requires x !in s
    ensures Without(s + [x], x) == s
    decreases |s|
  {
    if |s| > 0 {
      assert (s + [x])[1..] == s[1..] + [x];
      WithoutAppended(s[1..], x);
    } else {
      assert (s + [x])[1..] == [];
    }
  }

  /** A selection the page can hold: never empty, and the sentinel `All`
      occurs only on its own. */
  predicate WellFormed(selection: seq<string>)
  {
    |selection| > 0 && (All in selection <==> selection == [All])
  }

  /** `handleCategoryToggle`: `All` resets the selection; any other key is
      added at the end when absent and removed when present, the sentinel
      being dropped either way and restored when nothing would remain. */
  function Toggle(prev: seq<string>, category: string): (next: seq<string>)
    ensures WellFormed(next)
    ensures category == All ==> next == [All]
    ensures category != All ==> (category in next <==> category !in prev)
    ensures category != All ==> forall y :: y != All && y != category ==> (y in next <==> y in prev)
    ensures category != All && category !in prev ==> next[|next| - 1] == category
    ensures category != All && category !in prev ==> next == Without(prev, All) + [category]
    ensures category != All && next != [All] ==>
              Without(next, category) == Without(Without(prev, All), category)
  {
    if category == All then [All]
    else
      var withoutAll := Without(prev, All);
      if category in withoutAll then
        var newSelection := Without(withoutAll, category);
        if |newSelection| == 0 then [All] else newSelection
      else
        WithoutAppended(withoutAll, category);
        withoutAll + [category]
  }

  /** Toggling never introduces a duplicate key. */
  lemma ToggleKeepsNoDuplicates(prev: seq<string>, category: string)
    requires NoDuplicates(prev)
    ensures NoDuplicates(Toggle(prev, category))
  {
    if category != All {
      var withoutAll := Without(prev, All);
      SubsequenceNoDuplicates(withoutAll, prev);
      if category in withoutAll {
        SubsequenceNoDuplicates(Without(withoutAll, category), withoutAll);
      }
    }
  }

  /** Toggling an unselected concrete key twice restores the selection. */
  lemma ToggleTwiceRestores(s: seq<string>, category: string)
    requires WellFormed(s) && category != All && category !in s
    ensures Toggle(Toggle(s, category), category) == s
  {
    var withoutAll := Without(s, All);
    var once := Toggle(s, category);
    assert once == withoutAll + [category];
    WithoutAppended(withoutAll, category);
    if s != [All] {
      assert withoutAll == s;
    } else {
      assert withoutAll == [];
    }
  }

  /** Toggling a selected concrete key twice brings back the same keys,
      the key itself moving to the end. */
  lemma ToggleTwiceSameKeys(s: seq<string>, category: string)
    requires WellFormed(s) && category != All && category in s
    ensures forall y :: y in Toggle(Toggle(s, category), category) <==> y in s
    ensures var twice := Toggle(Toggle(s, category), category); twice[|twice| - 1] == category
  {
  }

  // ---------------------------------------------------------------------------
  // Page state

  /** The state the page keeps. The category table arrives from the data
      file; the fetch itself is outside the model. */
  datatype PageState = PageState(
    categories: CategoryTable,
    selected: seq<string>,
    searchTerm: string,
    selectedLocation: Option<Location>,
    showLegend: bool)

  /** The state on first render. */
  const Initial: PageState := PageState(map[], [All], "", None, true)

  /** The user and loader events the page reacts to. */
  datatype Event =
    | CategoriesLoaded(table: CategoryTable)
    | ToggleCategory(category: string)
    | SetSearch(term: string)
    | SelectLocation(location: Location)
    | CloseDetail
    | ToggleLegend

  /** One state update. */
  function Step(s: PageState, e: Event): (s': PageState)
    ensures e.ToggleCategory? ==> s'.selected == Toggle(s.selected, e.category)
    ensures !e.ToggleCategory? ==> s'.selected == s.selected
    ensures !e.SetSearch? ==> s'.searchTerm == s.searchTerm
    ensures e.SetSearch? ==> s'.searchTerm == e.term
    ensures e.SelectLocation? ==> s'.selectedLocation == Some(e.location)
    ensures e.CloseDetail? ==> s'.selectedLocation == None
    ensures !e.SelectLocation? && !e.CloseDetail? ==> s'.selectedLocation == s.selectedLocation
    ensures s'.showLegend == (if e.ToggleLegend? then !s.showLegend else s.showLegend)
    ensures !e.CategoriesLoaded? ==> s'.categories == s.categories
    ensures e.CategoriesLoaded? ==> s'.categories == e.table
  {
    match e
    case CategoriesLoaded(table) => s.(categories := table)
    case ToggleCategory(c) => s.(selected := Toggle(s.selected, c))
    case SetSearch(t) => s.(searchTerm := t)
    case SelectLocation(l) => s.(selectedLocation := Some(l))
    case CloseDetail => s.(selectedLocation := None)
    case ToggleLegend => s.(showLegend := !s.showLegend)
  }

  /** The state after a sequence of events. A field changes only through
      the events that set it. */
  function Run(s: PageState, events: seq<Event>): (r: PageState)
    ensures (forall i :: 0 <= i < |events| ==> !events[i].ToggleCategory?) ==> r.selected == s.selected
    ensures (forall i :: 0 <= i < |events| ==> !events[i].SetSearch?) ==> r.searchTerm == s.searchTerm
    ensures (forall i :: 0 <= i < |events| ==> !events[i].CategoriesLoaded?) ==> r.categories == s.categories
    decreases |events|
  {
    if |events| == 0 then s else Run(Step(s, events[0]), events[1..])
  }

  /** On first render nothing is selected, the legend shows, and the map
      shows every location. */
  lemma InitialShowsEverything(locs: seq<Location>)
    ensures Initial.selectedLocation == None && Initial.showLegend
    ensures WellFormed(Initial.selected) && PageVisible(Initial, locs) == locs
  {
  }

  /** What every reachable selection satisfies. */
  predicate Invariant(s: PageState)
  {
    WellFormed(s.selected) && NoDuplicates(s.selected)
  }

  /** Every state reachable from the initial one keeps the invariant. */
  lemma {:induction false} RunKeepsInvariant(s: PageState, events: seq<Event>)
    requires Invariant(s)
    ensures Invariant(Run(s, events))
    decreases |events|
  {
    if |events| > 0 {
      var e := events[0];
      if e.ToggleCategory? {
        ToggleKeepsNoDuplicates(s.selected, e.category);
      }
      RunKeepsInvariant(Step(s, e), events[1..]);
    }
  }

  /** In particular, every state the page can reach from its first render. */
  lemma ReachableInvariant(events: seq<Event>)
    ensures Invariant(Run(Initial, events))
  {
    RunKeepsInvariant(Initial, events);
  }

  /** The "Show All" button is lit when the selection includes `All`. */
  predicate ShowAllActive(s: PageState)
  {
    All in s.selected
  }

  /** The button of key `k` is lit when the selection includes `k`. */
  predicate FilterButtonActive(s: PageState, k: string)
  {
    k in s.selected
  }

  /** In a well-formed state "Show All" is lit exactly when no concrete key
      is selected. */
  lemma ShowAllExclusive(s: PageState, k: string)
    requires WellFormed(s.selected) && k != All
    ensures ShowAllActive(s) ==> !FilterButtonActive(s, k)
    ensures !ShowAllActive(s) ==> exists k' :: k' != All && FilterButtonActive(s, k')
  {
    if !ShowAllActive(s) {
      assert s.selected[0] != All && FilterButtonActive(s, s.selected[0]);
    }
  }

  /** The detail panel: shown exactly while a location is selected, with
      the same content rules as the marker popup. */
  function DetailPanel(s: PageState): (panel: Option<Popup>)
    ensures panel.Some? <==> s.selectedLocation.Some?
    ensures panel.Some? ==> panel.value.title == s.selectedLocation.value.name
    ensures panel.Some? ==> forall k :: HasSection(panel.value.sections, k) <==> Truthy(Field(s.selectedLocation.value, k))
  {
    match s.selectedLocation
    case None => None
    case Some(l) => Some(BuildPopup(l, s.categories))
  }

  /** The locations the page's map shows in state `s`. */
  function PageVisible(s: PageState, locs: seq<Location>): (r: seq<Location>)
    requires WellFormed(s.selected)
    ensures All in s.selected && s.searchTerm == "" ==> r == locs
    ensures All !in s.selected ==> forall l :: l in r ==> l.category in s.selected
  {
    VisibleLocations(locs, s.selected, s.searchTerm)
  }
}

=== FILE: sequences.dfy ===
/** Order facts about sequences shared by every filter of the model. */
module Sequences {

  /** `a` can be obtained from `b` by deleting elements, keeping the order of
      the rest. */
  predicate IsSubsequence<T(==)>(a: seq<T>, b: seq<T>)
    decreases |b|
  {
    if |a| == 0 then true
    else if |b| == 0 then false
    else (a[0] == b[0] && IsSubsequence(a[1..], b[1..])) || IsSubsequence(a, b[1..])
  }

  /** No element occurs twice. */
  predicate NoDuplicates<T(==)>(s: seq<T>)
  {
    forall i, j :: 0 <= i < j < |s| ==> s[i] != s[j]
  }

  /** Index of the first occurrence of `x` in `s`. */
  function FirstIndex<T(==)>(s: seq<T>, x: T): (i: nat)
    requires x in s
    ensures i < |s| && s[i] == x
    ensures forall j :: 0 <= j < i ==> s[j] != x
  {
    if s[0] == x then 0 else 1 + FirstIndex(s[1..], x)
  }

  /** Every sequence is a subsequence of itself. */
  lemma {:induction false} SubsequenceReflexive<T>(s: seq<T>)
    ensures IsSubsequence(s, s)
    decreases |s|
  {
    if |s| > 0 {
      SubsequenceReflexive(s[1..]);
    }
  }

  /** A subsequence of a subsequence is a subsequence. */
  lemma {:induction false} SubsequenceTransitive<T>(a: seq<T>, b: seq<T>, c: seq<T>)
    requires IsSubsequence(a, b) && IsSubsequence(b, c)
    ensures IsSubsequence(a, c)
    decreases |c|
  {
    if |a| > 0 && |b| > 0 && |c| > 0 {
      if IsSubsequence(b, c[1..]) {
        SubsequenceTransitive(a, b, c[1..]);
      } else if a[0] == b[0] && IsSubsequence(a[1..], b[1..]) {
        SubsequenceTransitive(a[1..], b[1..], c[1..]);
      } else {
        SubsequenceTransitive(a, b[1..], c[1..]);
      }
    }
  }

  /** Every prefix is a subsequence. */
  lemma {:induction false} PrefixIsSubsequence<T>(s: seq<T>, j: nat)
    requires j <= |s|
    ensures IsSubsequence(s[..j], s)
    decreases j
  {
    if j > 0 {
      PrefixIsSubsequence(s[1..], j - 1);
      assert s[..j][1..] == s[1..][..j - 1];
    }
  }

  /** A subsequence of the tail is a subsequence of the whole. */
  lemma SubsequenceOfTail<T>(a: seq<T>, b: seq<T>)
    requires |b| > 0 && IsSubsequence(a, b[1..])
    ensures IsSubsequence(a, b)
  {
  }

  /** Subsequences of duplicate-free sequences are duplicate-free. */
  lemma {:induction false} SubsequenceNoDuplicates<T>(a: seq<T>, b: seq<T>)
    requires IsSubsequence(a, b) && NoDuplicates(b)
    ensures NoDuplicates(a)
    decreases |b|
  {
    if |a| > 0 && |b| > 0 {
      assert NoDuplicates(b[1..]) by {
        forall i, j | 0 <= i < j < |b[1..]|
          ensures b[1..][i] != b[1..][j]
        {
          assert b[1..][i] == b[i + 1] && b[1..][j] == b[j + 1];
        }
      }
      if a[0] == b[0] && IsSubsequence(a[1..], b[1..]) {
        SubsequenceNoDuplicates(a[1..], b[1..]);
        SubsequenceMembers(a[1..], b[1..]);
        assert b[0] !in b[1..] by {
          forall j | 0 <= j < |b[1..]|
            ensures b[1..][j] != b[0]
          {
            assert b[1..][j] == b[j + 1];
          }
        }
        forall i, j | 0 <= i < j < |a|
          ensures a[i] != a[j]
        {
          if i == 0 {
            assert a[j] == a[1..][j - 1];
          } else {
            assert a[i] == a[1..][i - 1] && a[j] == a[1..][j - 1];
          }
        }
      } else {
        SubsequenceNoDuplicates(a, b[1..]);
      }
    }
  }

  /** Members of a subsequence are members of the whole. */
  lemma {:induction false} SubsequenceMembers<T>(a: seq<T>, b: seq<T>)
    requires IsSubsequence(a, b)
    ensures forall x :: x in a ==> x in b
    decreases |b|
  {
    if |a| > 0 && |b| > 0 {
      if a[0] == b[0] && IsSubsequence(a[1..], b[1..]) {
        SubsequenceMembers(a[1..], b[1..]);
        assert forall x :: x in a ==> x == a[0] || x in a[1..];
      } else {
        SubsequenceMembers(a, b[1..]);
      }
    }
  }
}

=== FILE: text.dfy ===
/** The JavaScript string primitives the source relies on: `toLowerCase`,
    `trim` and the regular-expression class `\s`, `indexOf`, `includes`,
    `split` on one character, and `replace` of a literal pattern. */
module Text {
  import opened Wrappers
  import opened Sequences

  /** JavaScript truthiness of an optional string: present and non-empty. */
  predicate Truthy(f: Option<string>)
  {
    f.Some? && f.value != ""
  }

  /** `toLowerCase` on one character, restricted to the ASCII letters. */
  function LowerChar(c: char): char
  {
    if 'A' <= c <= 'Z' then (c as int + 32) as char else c
  }

  /** `toLowerCase` on a string, character by character. */
  function Lower(s: string): (r: string)
    ensures |r| == |s|
    ensures forall i :: 0 <= i < |s| ==> r[i] == LowerChar(s[i])
    ensures forall i :: 0 <= i < |r| ==> !('A' <= r[i] <= 'Z')
    ensures forall i :: 0 <= i < |s| && !('A' <= s[i] <= 'Z') ==> r[i] == s[i]
  {
    seq(|s|, i requires 0 <= i < |s| => LowerChar(s[i]))
  }

  /** Trimming only deletes characters. */
  lemma TrimIsSubsequence(s: string)
    ensures IsSubsequence(Trim(s), s)
  {
    var r := Trim(s);
    var i :| 0 <= i <= |s| - |r| && r == s[i..i + |r|] && Spaces(s, 0, i) && Spaces(s, i + |r|, |s|);
    InfixIsSubsequence(s, i, i + |r|);
  }

  /** Every slice is a subsequence. */
  lemma {:induction false} InfixIsSubsequence(s: string, i: nat, j: nat)
    requires i <= j <= |s|
    ensures IsSubsequence(s[i..j], s)
    decreases |s|
  {
    if i > 0 {
      InfixIsSubsequence(s[1..], i - 1, j - 1);
      assert s[1..][i - 1..j - 1] == s[i..j];
      SubsequenceOfTail(s[i..j], s);
    } else {
      PrefixIsSubsequence(s, j);
    }
  }

  /** Lower-casing a second time changes nothing. */
  lemma LowerIdempotent(s: string)
    ensures Lower(Lower(s)) == Lower(s)
  {
    assert forall i :: 0 <= i < |s| ==> LowerChar(LowerChar(s[i])) == LowerChar(s[i]);
  }

  /** The characters removed by `trim` and matched by `\s`: the ECMAScript
      WhiteSpace and LineTerminator productions. */
  predicate IsSpace(c: char)
  {
    || c == '\t' || c == '\n' || c == '\U{B}' || c == '\U{C}' || c == '\r' || c == ' '
    || c == '\U{A0}' || c == '\U{1680}' || ('\U{2000}' <= c <= '\U{200A}')
    || c == '\U{2028}' || c == '\U{2029}' || c == '\U{202F}' || c == '\U{205F}'
    || c == '\U{3000}' || c == '\U{FEFF}'
  }

  /** Lower-casing never turns a space into a non-space or back. */
  lemma LowerKeepsSpaces(c: char)
    ensures IsSpace(LowerChar(c)) <==> IsSpace(c)
  {
  }

  /** Every character of `s[i..j]` is a space. */
  predicate Spaces(s: string, i: int, j: int)
    requires 0 <= i <= j <= |s|
  {
    forall k :: i <= k < j ==> IsSpace(s[k])
  }

  /** Length of the run of spaces starting at position `p`. */
  function SpaceRun(s: string, p: nat): (n: nat)
    requires p <= |s|
    ensures p + n <= |s|
    ensures Spaces(s, p, p + n)
    ensures p + n < |s| ==> !IsSpace(s[p + n])
    decreases |s| - p
  {
    if p < |s| && IsSpace(s[p]) then 1 + SpaceRun(s, p + 1) else 0
  }

  /** A stretch of spaces followed by a space lies inside the run. */
  lemma SpaceRunBound(s: string, p: nat, x: nat)
    requires p + x < |s|
    requires Spaces(s, p, p + x) && IsSpace(s[p + x])
    ensures x < SpaceRun(s, p)
  {
  }

  /** Length of the run of spaces that ends the string. */
  function TrailingSpaces(s: string): (n: nat)
    ensures n <= |s|
    ensures Spaces(s, |s| - n, |s|)
    ensures n < |s| ==> !IsSpace(s[|s| - n - 1])
    decreases |s|
  {
    if |s| > 0 && IsSpace(s[|s| - 1]) then 1 + TrailingSpaces(s[..|s| - 1]) else 0
  }

  /** Neither end of `s` is a space. */
  predicate IsTrimmed(s: string)
  {
    |s| == 0 || (!IsSpace(s[0]) && !IsSpace(s[|s| - 1]))
  }

  /** `String.prototype.trim`. */
  function Trim(s: string): (r: string)
    ensures IsTrimmed(r)
    ensures r == "" <==> Spaces(s, 0, |s|)
    ensures IsTrimmed(s) ==> r == s
    ensures exists i :: 0 <= i <= |s| - |r| && r == s[i..i + |r|]
                        && Spaces(s, 0, i) && Spaces(s, i + |r|, |s|)
  {
    var i := SpaceRun(s, 0);
    if i == |s| then
      assert s[0..0] == "";
      ""
    else
      var j := |s| - TrailingSpaces(s);
      assert i < j;
      var r := s[i..j];
      assert r == s[i..i + |r|];
      r
  }

  /** A string made only of spaces, whatever its letter case, trims to
      nothing; lower-casing does not change that. */
  lemma TrimEmptyUnderLower(s: string)
    ensures Trim(Lower(s)) == "" <==> Trim(s) == ""
  {
    var l := Lower(s);
    forall k | 0 <= k < |s|
      ensures IsSpace(l[k]) <==> IsSpace(s[k])
    {
      LowerKeepsSpaces(s[k]);
    }
  }

  /** `t` occurs in `s` starting at position `i`. */
  predicate IsAt(s: string, t: string, i: int)
  {
    0 <= i && i + |t| <= |s| && s[i..i + |t|] == t
  }

  /** `i` is the leftmost occurrence of `t` in `s`. */
  predicate FirstAt(s: string, t: string, i: int)
  {
    IsAt(s, t, i) && forall j :: 0 <= j < i ==> !IsAt(s, t, j)
  }

  /** `String.prototype.includes`: `t` occurs somewhere in `s`. */
  predicate Contains(s: string, t: string): (b: bool)
    ensures |t| == 0 ==> b
    ensures |s| < |t| ==> !b
    ensures s == t ==> b
  {
    assert |t| == 0 ==> IsAt(s, t, 0);
    assert s == t ==> IsAt(s, t, 0);
    exists i :: 0 <= i <= |s| - |t| && IsAt(s, t, i)
  }

  /** `indexOf` starting at `from`: the leftmost occurrence at or after
      `from`, or -1. */
  function IndexOfFrom(s: string, t: string, from: nat): (r: int)
    requires from <= |s|
    ensures r == -1 || (from <= r && IsAt(s, t, r))
    ensures r == -1 ==> forall i :: from <= i ==> !IsAt(s, t, i)
    ensures r != -1 ==> forall i :: from <= i < r ==> !IsAt(s, t, i)
    decreases |s| - from
  {
    if from + |t| > |s| then -1
    else if s[from..from + |t|] == t then from
    else IndexOfFrom(s, t, from + 1)
  }

  /** `String.prototype.indexOf`. */
  function IndexOf(s: string, t: string): (r: int)
    ensures r == -1 <==> !Contains(s, t)
    ensures r != -1 ==> FirstAt(s, t, r)
  {
    IndexOfFrom(s, t, 0)
  }

  /** `replace(pat, '')` with a literal pattern: only the leftmost
      occurrence is removed. */
  function RemoveFirst(s: string, pat: string): (r: string)
    ensures !Contains(s, pat) ==> r == s
    ensures Contains(s, pat) ==> |r| == |s| - |pat|
    ensures forall i :: FirstAt(s, pat, i) ==> r == s[..i] + s[i + |pat|..]
  {
    var i := IndexOf(s, pat);
    if i < 0 then s
    else
      assert forall j :: FirstAt(s, pat, j) ==> j == i;
      s[..i] + s[i + |pat|..]
  }

  /** `replace(/[...]/g, '')`: every character of `drop` is deleted. */
  function RemoveAll(s: string, drop: set<char>): (r: string)
    ensures forall k :: 0 <= k < |r| ==> r[k] !in drop
    ensures forall c :: c !in drop ==> (c in r <==> c in s)
    ensures IsSubsequence(r, s)
    ensures (forall k :: 0 <= k < |s| ==> s[k] !in drop) ==> r == s
    ensures forall c :: multiset(r)[c] == if c in drop then 0 else multiset(s)[c]
    decreases |s|
  {
    if |s| == 0 then ""
    else
      var rest := RemoveAll(s[1..], drop);
      assert s == [s[0]] + s[1..];
      assert forall c :: c in s <==> c == s[0] || c in s[1..];
      if s[0] in drop then
        SubsequenceOfTail(rest, s);
        rest
      else
        [s[0]] + rest
  }

  /** Number of occurrences of `c` in `s`. */
  function Count(s: string, c: char): nat
  {
    if |s| == 0 then 0 else (if s[0] == c then 1 else 0) + Count(s[1..], c)
  }

  /** `split(c)` for a one-character separator: the pieces between
      separators, one more piece than there are separators. */
  function Split(s: string, c: char): (parts: seq<string>)
    ensures |parts| == Count(s, c) + 1
    ensures forall i :: 0 <= i < |parts| ==> c !in parts[i]
    decreases |s|
  {
    if |s| == 0 then [""]
    else
      var rest := Split(s[1..], c);
      if s[0] == c then [""] + rest
      else [[s[0]] + rest[0]] + rest[1..]
  }

  /** `join(c)`: the pieces with a separator between neighbours. */
  function Join(parts: seq<string>, c: char): string
    requires |parts| >= 1
  {
    if |parts| == 1 then parts[0] else parts[0] + [c] + Join(parts[1..], c)
  }

  /** Joining the pieces of a split gives the original string back. */
  lemma {:induction false} JoinSplit(s: string, c: char)
    ensures Join(Split(s, c), c) == s
    decreases |s|
  {
    if |s| > 0 {
      var rest := Split(s[1..], c);
      JoinSplit(s[1..], c);
      if s[0] != c {
        var parts := Split(s, c);
        if |rest| == 1 {
          assert parts == [[s[0]] + rest[0]];
        } else {
          assert parts[1..] == rest[1..];
          assert Join(rest, c) == rest[0] + [c] + Join(rest[1..], c);
        }
      }
    }
  }

  /** Splitting around a separator splits each side independently. */
  lemma {:induction false} SplitAppend(a: string, b: string, c: char)
    ensures Split(a + [c] + b, c) == Split(a, c) + Split(b, c)
    decreases |a|
  {
    var s := a + [c] + b;
    if |a| == 0 {
      assert s[1..] == b;
    } else {
      assert s[1..] == a[1..] + [c] + b;
      SplitAppend(a[1..], b, c);
      var r := Split(a[1..], c) + Split(b, c);
      if a[0] != c {
        assert r[1..] == Split(a[1..], c)[1..] + Split(b, c);
      }
    }
  }

  /** A string without the separator is a single piece. */
  lemma {:induction false} SplitWithoutSeparator(s: string, c: char)
    requires c !in s
    ensures Split(s, c) == [s]
    decreases |s|
  {
    if |s| > 0 {
      SplitWithoutSeparator(s[1..], c);
      assert [s[0]] + s[1..] == s;
    }
  }

  /** Splitting a join of separator-free pieces gives the pieces back. */
  lemma {:induction false} SplitJoin(parts: seq<string>, c: char)
    requires |parts| >= 1
    requires forall i :: 0 <= i < |parts| ==> c !in parts[i]
    ensures Split(Join(parts, c), c) == parts
    decreases |parts|
  {
    SplitWithoutSeparator(parts[0], c);
    if |parts| > 1 {
      SplitJoin(parts[1..], c);
      SplitAppend(parts[0], Join(parts[1..], c), c);
      assert [parts[0]] + parts[1..] == parts;
    }
  }

  /** A one-character pattern occurs exactly when the character does. */
  lemma ContainsChar(s: string, c: char)
    ensures Contains(s, [c]) <==> c in s
  {
    if c in s {
      var i :| 0 <= i < |s| && s[i] == c;
      assert IsAt(s, [c], i);
    }
    if Contains(s, [c]) {
      var i :| 0 <= i <= |s| - 1 && IsAt(s, [c], i);
      assert s[i] == s[i..i + 1][0];
    }
  }

  /** `indexOf` finds the leftmost occurrence. */
  lemma IndexOfFirst(s: string, t: string, i: int)
    requires FirstAt(s, t, i)
    ensures IndexOf(s, t) == i
  {
    assert i <= |s| - |t|;
  }

  /** Trimming only removes characters. */
  lemma TrimKeepsAbsence(s: string, c: char)
    requires c !in s
    ensures c !in Trim(s)
  {
    var r := Trim(s);
    var i :| 0 <= i <= |s| - |r| && r == s[i..i + |r|] && Spaces(s, 0, i) && Spaces(s, i + |r|, |s|);
    assert forall k :: 0 <= k < |r| ==> r[k] == s[i + k];
  }

  /** The separator count is zero exactly when the separator is absent. */
  lemma {:induction false} CountZero(s: string, c: char)
    ensures Count(s, c) == 0 <==> c !in s
    decreases |s|
  {
    if |s| > 0 {
      CountZero(s[1..], c);
      assert c in s <==> s[0] == c || c in s[1..];
    }
  }

  /** A pattern with a character the string lacks does not occur in it. */
  lemma MissingCharNotContained(s: string, t: string, k: int)
    requires 0 <= k < |t| && t[k] !in s
    ensures !Contains(s, t)
  {
    forall i | 0 <= i <= |s| - |t|
      ensures !IsAt(s, t, i)
    {
      assert s[i..i + |t|][k] == s[i + k];
    }
  }
}

=== FILE: wrappers.dfy ===
/** The optional value used wherever the JavaScript source reads a field that
    may be `undefined` or `null`. */
module Wrappers {

  datatype Option<+T> = None | Some(value: T)
}
